=== FILE: README.md ===
# ImgTiler grid tiling, modelled in Dafny

ImgTiler cuts an image into a grid of overlapping tiles and puts the tiles back together.

`SplitImage` works in four steps:

1. `check_divisible` pads the bottom and the right with zeros until the height is a multiple of the grid's rows and the width a multiple of its columns.
2. `pad_image` adds a zero border of `ov = max(overlap, 1)` pixels on all four sides.
3. `extract_tile` cuts out window (i, j), the rectangle `[i*th, (i+1)*th + 2ov) x [j*tw, (j+1)*tw + 2ov)`.
4. `split_image` collects the windows in row-major order.

`CombineTiles` reverses this:

1. `depad_tiles` strips `ov` from every side of each tile.
2. The block size `th x tw` is taken from the first stripped tile.
3. `combine_tiles` writes `tiles[i*cols + j]` into block (i, j) of a zero canvas of `(rows*th) x (cols*tw)` pixels.

The package version in `ImgTiler/ImageTiler.py` converts images to `uint8` on the way in and back on the way out. The older copy in `dist/ImageTiler.py` does no conversion, but its canvas is always `uint8`.

## The model

The channel axis is never sliced or padded, so the shared algorithm is modelled over a generic pixel type `P`:

- An `Images.Image<P>` is a width and a sequence of rows. It is `Valid()` when every row has that width.
- A numpy error becomes a `Tiling.Result` failure:
  - `DivisionByZero` for a zero grid dimension;
  - `IndexOutOfRange` for a missing tile;
  - `ShapeMismatch` for a tile that cannot be broadcast into its block.

The modules are:

- `Images`: Python slicing with negative and out-of-range bounds, constant padding, slice assignment and broadcasting.
- `GridArith`:
  - products, quotients and remainders written as `Mul`, `Quot` and `Rem`;
  - these are defined by repeated addition and subtraction, and are proved equal to `*`, `/` and `%`;
  - the row-major index laws.
- `Splitter`: `check_divisible`, the overlap border, `extract_tile` and `split_image`.
- `Combiner`: `depad_tiles` and `combine_tiles`.
- `RoundTrip`: the inverse laws between splitting and combining.
- `Uint8`: the cast to `uint8`. A pixel is a channel vector of integers, and a cast keeps the value modulo 256.
- `Uint8Split`: the tiles of a `uint8` image are `uint8`.
- `ImgTiler`: the package classes on `uint8` images.
- `DistTiler`: the `dist/` copy and its `uint8` canvas.

The `dist/` copy repeats the same algorithm line for line, so `Splitter` and `Combiner` model both files. The corresponding places are:

- `pad_image`: dist/ImageTiler.py:33-36;
- `check_divisible`: dist/ImageTiler.py:51-55;
- `extract_tile`: dist/ImageTiler.py:73-80;
- `split_image`: dist/ImageTiler.py:94-110;
- `depad_tiles`: dist/ImageTiler.py:166-170;
- `combine_tiles`: dist/ImageTiler.py:183-195.

Some contracts refer to `PixelOr(img, zero, x, y)`. This is pixel (x, y) of `img` when it exists, and `zero` when it does not.

## Model

| member | source | states |
|---|---|---|
| Tiling.ClampOverlap | ImgTiler/ImageTiler.py:65 | the border actually used is at least one pixel and at least the requested overlap, and equals the request whenever that is positive |
| GridArith.MulIsProduct | ImgTiler/ImageTiler.py:123-127 | the block offsets `i * tile_height` are ordinary products |
| GridArith.QuotRemIsDivMod | ImgTiler/ImageTiler.py:149-151 | the repeated-subtraction quotient and remainder are Python's `//` and `%` on naturals |
| GridArith.BlockFits | ImgTiler/ImageTiler.py:259 | block i of height th ends within rows * th, so every canvas slice lies inside the canvas |
| GridArith.CellsApart | ImgTiler/ImageTiler.py:259 | the blocks of two different grid cells do not overlap |
| GridArith.RowMajor | ImgTiler/ImageTiler.py:257 | cell (i, j) has a position below rows * cols, and `//` and `%` by cols give i and j back |
| GridArith.RowMajorInverse | ImgTiler/ImageTiler.py:157-158 | every position below rows * cols belongs to exactly the cell its quotient and remainder name |
| GridArith.RowMajorUnique | ImgTiler/ImageTiler.py:257 | two cells with the same row-major position are the same cell |
| Images.Crop | ImgTiler/ImageTiler.py:130 | a numpy slice has, in each dimension, the length Python's slice rules give for its bounds, negative and out-of-range bounds included; its pixels are given by `Images.CropPixel` |
| Images.CropPixel | ImgTiler/ImageTiler.py:130 | a numpy slice, with Python's rules for negative and out-of-range bounds, reads pixel (r, c) at the normalised start plus (r, c) |
| Images.CropInside | ImgTiler/ImageTiler.py:130 | a slice whose bounds are inside the image is the rectangle between them |
| Images.Pad | ImgTiler/ImageTiler.py:82-85 | constant padding grows the height by top + bottom and the width by left + right; its pixels are given by `Images.PadPixel` |
| Images.PadPixel | ImgTiler/ImageTiler.py:82-85 | constant padding moves pixel (x, y) to (x + top, y + left) and puts the zero everywhere else |
| Images.Zeros | ImgTiler/ImageTiler.py:253 | `np.zeros` of a shape has that shape and the zero at every pixel |
| Images.Broadcast | ImgTiler/ImageTiler.py:259 | a right-hand side of size 1 in a dimension is repeated along it, and one of the right shape is unchanged |
| Images.Assign | ImgTiler/ImageTiler.py:259-261 | slice assignment puts the tile inside the rectangle and leaves every other pixel of the canvas as it was |
| Images.AssignOutside | ImgTiler/ImageTiler.py:259-261 | a rectangle disjoint from the assigned one reads the same before and after the assignment |
| Splitter.PadAmount | ImgTiler/ImageTiler.py:101-102 | the padding added to a dimension is less than the grid count and makes the dimension divisible by it |
| Splitter.PadAmountIsFormula | ImgTiler/ImageTiler.py:101-102 | the padding is `(g - n % g) % g`, it is zero exactly when n is already divisible, and the padded size is divisible |
| Splitter.PadAmountMinimal | ImgTiler/ImageTiler.py:100-104 | the padded size is the smallest multiple of the grid count that is at least the original size |
| Splitter.PaddedSize | ImgTiler/ImageTiler.py:104 | the padded size is a multiple of the grid count, at least the original size and less than the size plus the grid count |
| Splitter.TileSize | ImgTiler/ImageTiler.py:149-151 | the grid count times the tile size is the padded size |
| Splitter.TileSizeIsQuotient | ImgTiler/ImageTiler.py:149-151 | `tile_height = height // grid[0]` divides the padded height exactly, and it is the smallest tile size whose grid covers the image |
| Splitter.GridPad | ImgTiler/ImageTiler.py:100-106 | `check_divisible` grows each dimension to its padded size, the smallest multiple of the grid count at least as large; its pixels are given by `Splitter.GridPadPixel` |
| Splitter.GridPadPixel | ImgTiler/ImageTiler.py:82-85 | after `check_divisible` every original pixel keeps its position, and every added pixel (bottom and right only) is zero |
| Splitter.GridPadCropsBack | ImgTiler/ImageTiler.py:100-106 | cutting the padded image to the original height and width gives the image back |
| Splitter.Bordered | ImgTiler/ImageTiler.py:153 | the border of ov adds 2ov to each dimension of the grid-padded image; its pixels are given by `Splitter.BorderedPixel` |
| Splitter.BorderedPixel | ImgTiler/ImageTiler.py:153 | the border of ov moves every pixel of the image by (ov, ov), and every cell not covered by the image is zero |
| Splitter.ExtractTile | ImgTiler/ImageTiler.py:122-133 | a window that lies inside the bordered image has shape (th + 2ov) x (tw + 2ov); its pixels are given by `Splitter.ExtractPixel` |
| Splitter.ExtractTileIsSlice | ImgTiler/ImageTiler.py:122-133 | the tile is the numpy slice `[i*th : (i+1)*th + 2ov, j*tw : (j+1)*tw + 2ov]` of the bordered image |
| Splitter.ExtractPixel | ImgTiler/ImageTiler.py:122-133 | tile pixel (r, c) is bordered pixel (i*th + r, j*tw + c), and that pixel exists |
| Splitter.Window | ImgTiler/ImageTiler.py:149-159 | every window, border tiles included, fits inside the bordered image, so every tile is exactly (th + 2ov) x (tw + 2ov) |
| Splitter.WindowPixel | ImgTiler/ImageTiler.py:122-159 | pixel (r, c) of tile (i, j) is pixel (i*th + r - ov, j*tw + c - ov) of the original image, or zero where that lies outside it |
| Splitter.WindowCorePixel | ImgTiler/ImageTiler.py:147-159 | interior pixel (ov + r, ov + c) of tile (i, j) is pixel (i*th + r, j*tw + c) of the grid-padded image |
| Splitter.Split | ImgTiler/ImageTiler.py:146-170 | splitting fails with a division by zero exactly when a grid dimension is zero; otherwise it yields rows * cols tiles of the full tile size |
| Splitter.SplitOrder | ImgTiler/ImageTiler.py:156-166 | tile number i * cols + j of the list is window (i, j) |
| Splitter.SplitImage | ImgTiler/ImageTiler.py:135-170 | the nested loop of `split_image`, appending tile after tile, produces exactly the declarative split |
| Splitter.OverlapContinuityHorizontal | ImgTiler/ImageTiler.py:126-127 | the last 2ov columns of tile (i, j) are the first 2ov columns of tile (i, j + 1) |
| Splitter.OverlapContinuityVertical | ImgTiler/ImageTiler.py:123-124 | the last 2ov rows of tile (i, j) are the first 2ov rows of tile (i + 1, j) |
| Combiner.Depad | ImgTiler/ImageTiler.py:232-236 | stripping ov from each side shrinks each dimension by 2ov, and leaves it empty when it is at most 2ov |
| Combiner.DepadPixel | ImgTiler/ImageTiler.py:235 | pixel (r, c) of a stripped tile is pixel (r + ov, c + ov) of the tile |
| Combiner.DepadUndoesPad | ImgTiler/ImageTiler.py:232-236 | stripping ov from an image bordered by ov gives the image back |
| Combiner.BlockIsSlice | ImgTiler/ImageTiler.py:259 | block (i, j) is the canvas slice `[i*th : (i+1)*th, j*tw : (j+1)*tw]` |
| Combiner.BlocksDetermine | ImgTiler/ImageTiler.py:255-261 | two canvases of the grid's shape that agree on every block are equal |
| Combiner.PasteBlock | ImgTiler/ImageTiler.py:259-261 | writing a tile of the block size into block (i, j) keeps the canvas shape (rows * th) x (cols * tw); what it writes is given by `Combiner.PasteBlockHit` and `Combiner.PasteBlockFrame` |
| Combiner.PasteBlockHit | ImgTiler/ImageTiler.py:259-261 | after a tile is written into block (i, j), that block reads back as the tile |
| Combiner.PasteBlockFrame | ImgTiler/ImageTiler.py:259-261 | writing block (i, j) leaves every other block of the canvas unchanged |
| Combiner.Assemble | ImgTiler/ImageTiler.py:255-261 | rows * cols blocks of th x tw, in row-major order, make a canvas of (rows * th) x (cols * tw); where each block lands is given by `Combiner.AssembleBlock` |
| Combiner.AssembleBlock | ImgTiler/ImageTiler.py:255-261 | block (i, j) of the assembled canvas is piece i * cols + j |
| Combiner.CoreShape | ImgTiler/ImageTiler.py:250-251 | the block size is the first tile's height and width, each less 2ov, or 0 where that dimension is at most 2ov |
| Combiner.Combine | ImgTiler/ImageTiler.py:248-263 | an empty list fails on `tiles[0]`; a success read at least rows * cols tiles and has the canvas shape (rows * th) x (cols * tw) taken from the first stripped tile |
| Combiner.CombineSucceeds | ImgTiler/ImageTiler.py:251-261 | combining succeeds exactly when the list is non-empty, holds at least rows * cols tiles, and each of those broadcasts into the block size |
| Combiner.CombineBlock | ImgTiler/ImageTiler.py:257-261 | block (i, j) of the combined image is tile i * cols + j, stripped and broadcast to the block size |
| Combiner.CombineOutcomeByShape | ImgTiler/ImageTiler.py:251-261 | whether combining fails, and with which error, depends only on the tiles' shapes and not on their pixels |
| Combiner.CombineIgnoresExtra | ImgTiler/ImageTiler.py:255-257 | for a non-empty grid (rows * cols > 0), tiles after the first rows * cols change neither the outcome nor the image |
| Combiner.FilledAssembles | ImgTiler/ImageTiler.py:255-261 | a canvas whose every block holds its fitted tile is the assembled canvas |
| Combiner.CombineTiles | ImgTiler/ImageTiler.py:248-263 | the nested loop writing block after block into a zero canvas produces exactly the declarative combination, errors included |
| RoundTrip.DepadWindow | ImgTiler/ImageTiler.py:232-236 | stripping split tile (i, j) gives block (i, j) of the grid-padded image |
| RoundTrip.CombineSplit | ImgTiler/ImageTiler.py:248-263 | combining the tiles of a split, with the same grid and overlap, gives the grid-padded image |
| RoundTrip.SplitCombineCrop | ImgTiler/ImageTiler.py:248-263 | cutting the combined tiles of a split to the original height and width gives the original image |
| RoundTrip.SplitCombineExact | ImgTiler/ImageTiler.py:100-104 | when the grid divides the image, combining the tiles of a split gives the image itself |
| RoundTrip.SplitThenCombine | test.py:10-14 | the script's split followed by combine stops with a division by zero for a zero grid dimension, and otherwise ends with the grid-padded image: the image itself when the grid divides it, and the image again once cropped to its size |
| RoundTrip.GridPadExact | ImgTiler/ImageTiler.py:100-104 | `check_divisible` leaves an image the grid already divides unchanged |
| Uint8.CastByte | ImgTiler/ImageTiler.py:31 | a cast to `uint8` gives a byte congruent to the value modulo 256 |
| Uint8.CastByteUnique | ImgTiler/ImageTiler.py:31 | that byte is the only byte congruent to the value |
| Uint8.CastByteIdentity | ImgTiler/ImageTiler.py:42 | casting a byte value leaves it unchanged |
| Uint8.ToUint8 | ImgTiler/ImageTiler.py:31 | the cast image has the same shape and every channel of every pixel cast |
| Uint8.ToUint8Identity | ImgTiler/ImageTiler.py:41-42 | casting an image that is already `uint8` leaves it unchanged |
| Uint8.ToUint8Idempotent | ImgTiler/ImageTiler.py:41-42 | casting twice is casting once |
| Uint8.ToUint8AllIdentity | ImgTiler/ImageTiler.py:216 | converting a list of `uint8` tiles leaves the list unchanged |
| Uint8Split.GridPadUint8 | ImgTiler/ImageTiler.py:104 | zero padding of a `uint8` image with a byte zero is `uint8` |
| Uint8Split.SplitUint8 | ImgTiler/ImageTiler.py:156-166 | the tiles of a `uint8` image are all `uint8` |
| Uint8Split.CombineUint8 | ImgTiler/ImageTiler.py:253-261 | combining `uint8` tiles gives a `uint8` canvas, because every canvas pixel is a pixel of one of the tiles |
| ImgTiler.ConvertToUint8 | ImgTiler/ImageTiler.py:28-35 | for an unsigned dtype the conversion keeps the shape and every channel modulo 256, without rescaling |
| ImgTiler.ConvertFromUint8 | ImgTiler/ImageTiler.py:41-42 | converting back to `uint8` gives a `uint8` image of the same shape, and leaves a `uint8` image unchanged |
| ImgTiler.SplitUint8Image | ImgTiler/ImageTiler.py:135-170 | for a `uint8` image the package split is the plain split, padding with a zero pixel of `channels` channels, so `Splitter.SplitOrder`, `Splitter.WindowPixel` and the overlap laws hold for its tiles; it fails exactly when a grid dimension is zero, and otherwise yields rows * cols `uint8` tiles |
| ImgTiler.CombineUint8Tiles | ImgTiler/ImageTiler.py:206-263 | when the first tile is `uint8`, the package combination is the plain combination of the tiles cast to `uint8`, and of the tiles themselves when they are all `uint8`; it fails exactly when the plain one does, with the same error, and its image is `uint8` |
| ImgTiler.ImgTilerRoundTrip | ImgTiler/ImageTiler.py:238-266 | for a `uint8` image, combining the package split gives the grid-padded image: the conversions inside the two classes change nothing |
| ImgTiler.ImgTilerCropRoundTrip | ImgTiler/ImageTiler.py:238-266 | for a `uint8` image, cutting that combination to the original size gives the image back |
| ImgTiler.SplitThenCombineUint8 | test.py:10-14 | on a `uint8` image the script on the package classes fails only for a zero grid dimension; otherwise it ends with the grid-padded image, which is the image itself when the grid divides it, and the image again once cropped to its size |
| DistTiler.DistCombine | dist/ImageTiler.py:182-199 | the `dist/` combination fails exactly when the plain one does, with the same error, and otherwise is a `uint8` image of the plain canvas's shape |
| DistTiler.DistCombineCastsEachTile | dist/ImageTiler.py:187-195 | writing every tile into the `uint8` canvas, which casts it, gives the same result and errors as casting the finished canvas |
| DistTiler.DistRoundTripCast | dist/ImageTiler.py:183-195 | combining the tiles of any split gives the grid-padded image with every value cast to `uint8` |
| DistTiler.DistRoundTrip | dist/ImageTiler.py:183-195 | for a `uint8` image the `dist/` round trip gives the grid-padded image |
| DistTiler.DistCropRoundTrip | dist/ImageTiler.py:183-195 | for a `uint8` image, cutting the `dist/` round trip to the original size gives the image back |
| DistTiler.DistSplitThenCombine | test.py:10-14 | the script on the `dist/` classes fails only for a zero grid dimension, otherwise yields the grid-padded image cast to `uint8`, and gives a `uint8` image back once cropped |

## Notes on the code

- **Casting, not rescaling.** `convert_to_uint8` casts every unsigned dtype straight to `uint8` (ImgTiler/ImageTiler.py:30-31). This keeps each value modulo 256, with no rescaling of the value range.
- **No overlap check.** No overlap is ever rejected. The overlap is clamped to at least 1 (ImgTiler/ImageTiler.py:65), and every window fits the bordered image (`Splitter.Window`).
- **No tile-count check.** `combine_tiles` never compares the number of tiles with the grid:
  - for a non-empty grid, tiles after the first `rows * cols` change neither the outcome nor the image (`Combiner.CombineIgnoresExtra`). They are still converted (ImgTiler/ImageTiler.py:216) and depadded (lines 234-235). With a zero grid dimension, `tiles[0]` is still read for the canvas shape (lines 251-253), so an empty list fails even then;
  - too few tiles raise an `IndexError` (`IndexOutOfRange`) when every present tile fits its block;
  - a tile that cannot be broadcast into its block raises a `ValueError` (`ShapeMismatch`).

## Left out

- Drawing with `cv2.rectangle` when `show_rect` is true is not modelled; the model is the `show_rect=False` path. OpenCV's rasterisation is foreign code. The tiles are views of one padded buffer, so the drawing also changes neighbouring tiles.
- `preview_tiles` and `preview_image` (matplotlib) are not modelled. Neither is reading images from files.
- The float, `uint16` and `uint32` branches of `convert_from_uint8`, and the float branch of `convert_to_uint8`, are left out. They are floating-point arithmetic (ImgTiler/ImageTiler.py:33, 40, 44).
- `ImgTiler.SplitUint8Image`, `ImgTiler.CombineUint8Tiles`, `ImgTiler.ImgTilerRoundTrip`, `ImgTiler.ImgTilerCropRoundTrip` and `ImgTiler.SplitThenCombineUint8`: the model has no dtype. `Uint8.IsUint8`, which says every value is a byte, stands in for "the array's dtype is `uint8`". A `uint16` or `uint32` array whose values are all bytes meets these members' requirements. The source nevertheless takes the `uint16`/`uint32` branches for it, so that array is outside what these contracts promise.
- `ImgTiler.SplitUint8Image`: requires a `uint8` image.
  - For a `uint16` or `uint32` image, `what_is` gives the dtype maximum M, 65535 or 4294967295 (ImgTiler/ImageTiler.py:14-19).
  - Because the bounds are swapped at line 62, line 44 maps each tile byte b to M - (M/255)·b. That is 65535 - 257·b for `uint16` and 4294967295 - 16843009·b for `uint32`.
  - By that arithmetic, the package round trip of a value v ends with 257·(v mod 256) for `uint16` and with 16843009·(v mod 256) for `uint32`, not v mod 256.
  - None of this is modelled.
- `ImgTiler.CombineUint8Tiles`: requires the first tile to be `uint8`, because that tile's dtype picks the canvas dtype and the final conversion (ImgTiler/ImageTiler.py:215, 253, 263). Any other first tile reaches the floating-point branches.
- `ImgTiler.ImgTilerRoundTrip`, `ImgTiler.ImgTilerCropRoundTrip` and `ImgTiler.SplitThenCombineUint8` are stated for `uint8` images only, for the same reason.
- `DistTiler.DistCombine`: integer dtypes only. dist/ImageTiler.py converts nothing, so a float image reaches the `uint8` canvas of line 187, and numpy truncates its values on the assignments at lines 193 and 195. A pixel here is a vector of integers, so that truncation is not modelled.
- `what_is` dispatches on the dtype name and builds the dtype with `eval`. It is not modelled.
  - It returns `(dtype, max, min)`, but both classes unpack it as `(type, min, max)` (ImgTiler/ImageTiler.py:26, 62, 215). The swapped bounds are read by the float branches (lines 33 and 40) and by the `uint16`/`uint32` branch of `convert_from_uint8` (line 44). The `uint8` path never reads them.
  - For a signed integer dtype, `what_is` fails because `max_val` is never assigned. Signed dtypes are left out.
- The channel axis is not modelled: a pixel is opaque (`P`, or a channel vector in the `uint8` wrappers).
  - Tiles with differing channel counts, which numpy would refuse to broadcast, are therefore not distinguished.
  - A 2-D grayscale image counts as a single channel.
- A negative grid dimension is not modelled, because the grid dimensions are naturals. Python would slice with negative bounds there.
- `ImgTiler.SplitUint8Image`: the zero used for padding is taken from a `channels` argument that the caller must match to the image. numpy derives the channel count from the array itself.

=== FILE: combine.dfy ===
/** `CombineTiles` (ImgTiler/ImageTiler.py, repeated in dist/ImageTiler.py) over images with
    an arbitrary pixel type `P`.

    Combining strips `ov = max(overlap, 1)` from every side of each tile, takes the block
    size `th x tw` from the first stripped tile, and writes tile `i * cols + j` into block
    (i, j) of a zero canvas of `(rows * th) x (cols * tw)` pixels, numpy broadcasting a
    tile whose shape differs only by dimensions of size 1. */
module Combiner {
  import opened Images
  import opened GridArith
  import opened Tiling

  // ---------------------------------------------------------------------------
  // Depadding

  /** `depad_tiles` on one tile: `tile[ov:-ov, ov:-ov]`, which is empty in a dimension
      shorter than `2ov`, as Python slicing gives. */
  function Depad<P>(t: Image<P>, ov: nat): (d: Image<P>)
    requires t.Valid() && ov >= 1
    ensures d.HasShape(if t.Height() >= 2 * ov then t.Height() - 2 * ov else 0,
                       if t.width >= 2 * ov then t.width - 2 * ov else 0)
  {
    Crop(t, ov, -(ov as int), ov, -(ov as int))
  }

  /** Pixel (r, c) of `t[ov:-ov, ov:-ov]` is pixel (ov + r, ov + c) of `t`. */
  lemma CropBorderPixel<P>(t: Image<P>, ov: nat, r: nat, c: nat)
    requires t.Valid() && ov >= 1
    requires r < SliceLength(t.Height(), ov, -(ov as int)) && c < SliceLength(t.width, ov, -(ov as int))
    ensures ov + r < t.Height() && ov + c < t.width
    ensures Crop(t, ov, -(ov as int), ov, -(ov as int)).px[r][c] == t.px[ov + r][ov + c]
  {
    assert SliceIndex(ov, t.Height()) == ov && SliceIndex(ov, t.width) == ov;
    CropPixel(t, ov, -(ov as int), ov, -(ov as int), r, c, ov + r, ov + c);
  }

  lemma DepadPixel<P>(t: Image<P>, ov: nat, r: nat, c: nat)
    requires t.Valid() && ov >= 1 && r + 2 * ov < t.Height() && c + 2 * ov < t.width
    ensures Depad(t, ov).HasShape(t.Height() - 2 * ov, t.width - 2 * ov)
    ensures Depad(t, ov).px[r][c] == t.px[ov + r][ov + c]
  {
    CropBorderPixel(t, ov, r, c);
  }

  /** Depadding undoes `pad_image`: stripping `ov` from an image bordered by `ov` on every
      side gives the image back. */
  lemma DepadUndoesPad<P>(img: Image<P>, zero: P, ov: nat)
    requires img.Valid() && ov >= 1
    ensures Depad(Pad(img, zero, ov, ov, ov, ov), ov) == img
  {
    var p := Pad(img, zero, ov, ov, ov, ov);
    var d := Depad(p, ov);
    forall r, c | 0 <= r < img.Height() && 0 <= c < img.width
      ensures d.px[r][c] == img.px[r][c]
    {
      DepadPixel(p, ov, r, c);
      PadPixel(img, zero, ov, ov, ov, ov, ov + r, ov + c, r, c);
    }
    Extensionality(d, img, img.Height(), img.width);
  }

  // ---------------------------------------------------------------------------
  // Blocks of a canvas

  /** Block (i, j) of a canvas of `rows x cols` blocks of `th x tw` pixels. */
  function Block<P>(img: Image<P>, th: nat, tw: nat, rows: nat, cols: nat, i: nat, j: nat): (b: Image<P>)
    requires img.HasShape(Mul(rows, th), Mul(cols, tw)) && i < rows && j < cols
    ensures b.HasShape(th, tw)
  {
    BlockFits(i, rows, th);
    BlockFits(j, cols, tw);
    Sub(img, Mul(i, th), Mul(j, tw), th, tw)
  }

  /** Pixel (r, c) of block (i, j) is pixel (i * th + r, j * tw + c) of the image. */
  lemma BlockPixel<P>(img: Image<P>, th: nat, tw: nat, rows: nat, cols: nat, i: nat, j: nat, r: nat, c: nat)
    requires img.HasShape(Mul(rows, th), Mul(cols, tw)) && i < rows && j < cols
    requires r < th && c < tw
    ensures Mul(i, th) + r < Mul(rows, th) && Mul(j, tw) + c < Mul(cols, tw)
    ensures Block(img, th, tw, rows, cols, i, j).px[r][c] == img.px[Mul(i, th) + r][Mul(j, tw) + c]
  {
    BlockFits(i, rows, th);
    BlockFits(j, cols, tw);
    assert Block(img, th, tw, rows, cols, i, j) == Sub(img, Mul(i, th), Mul(j, tw), th, tw);
    SubPixel(img, Mul(i, th), Mul(j, tw), th, tw, r, c);
  }

  /** The block is exactly numpy's slice `image[i*th:(i+1)*th, j*tw:(j+1)*tw]`, the
      products written with `Mul` (MulIsProduct). */
  lemma BlockIsSlice<P>(img: Image<P>, th: nat, tw: nat, rows: nat, cols: nat, i: nat, j: nat)
    requires img.HasShape(Mul(rows, th), Mul(cols, tw)) && i < rows && j < cols
    ensures Block(img, th, tw, rows, cols, i, j) == Crop(img, Mul(i, th), Mul(i + 1, th), Mul(j, tw), Mul(j + 1, tw))
  {
    BlockFits(i, rows, th);
    BlockFits(j, cols, tw);
    MulSucc(i, th);
    MulSucc(j, tw);
    CropInside(img, Mul(i, th), Mul(i + 1, th), Mul(j, tw), Mul(j + 1, tw));
  }

  /** The block at row-major position `k`. */
  function BlockAt<P>(img: Image<P>, th: nat, tw: nat, rows: nat, cols: nat, k: nat): (b: Image<P>)
    requires img.HasShape(Mul(rows, th), Mul(cols, tw)) && k < Mul(rows, cols)
    ensures b.HasShape(th, tw)
  {
    RowMajorInverse(k, rows, cols);
    Block(img, th, tw, rows, cols, Quot(k, cols), Rem(k, cols))
  }

  /** Two canvases of `rows x cols` blocks that agree block by block are equal: the blocks
      cover the whole canvas. */
  lemma BlocksDetermine<P>(a: Image<P>, b: Image<P>, th: nat, tw: nat, rows: nat, cols: nat)
    requires a.HasShape(Mul(rows, th), Mul(cols, tw)) && b.HasShape(Mul(rows, th), Mul(cols, tw))
    requires forall i, j :: 0 <= i < rows && 0 <= j < cols ==>
      Block(a, th, tw, rows, cols, i, j) == Block(b, th, tw, rows, cols, i, j)
    ensures a == b
  {
    forall R, C | 0 <= R < Mul(rows, th) && 0 <= C < Mul(cols, tw)
      ensures a.px[R][C] == b.px[R][C]
    {
      RowMajorInverse(R, rows, th);
      RowMajorInverse(C, cols, tw);
      var i, j := Quot(R, th), Quot(C, tw);
      BlockPixel(a, th, tw, rows, cols, i, j, Rem(R, th), Rem(C, tw));
      BlockPixel(b, th, tw, rows, cols, i, j, Rem(R, th), Rem(C, tw));
    }
    Extensionality(a, b, Mul(rows, th), Mul(cols, tw));
  }

  /** `image[i*th:(i+1)*th, j*tw:(j+1)*tw] = t` for a right-hand side of the block's shape. */
  function PasteBlock<P>(canvas: Image<P>, th: nat, tw: nat, rows: nat, cols: nat, i: nat, j: nat, t: Image<P>): (r: Image<P>)
    requires canvas.HasShape(Mul(rows, th), Mul(cols, tw)) && i < rows && j < cols && t.HasShape(th, tw)
    ensures r.HasShape(Mul(rows, th), Mul(cols, tw))
  {
    BlockFits(i, rows, th);
    BlockFits(j, cols, tw);
    Assign(canvas, Mul(i, th), Mul(i, th) + th, Mul(j, tw), Mul(j, tw) + tw, t)
  }

  /** After the assignment, block (i, j) holds the right-hand side. */
  lemma PasteBlockHit<P>(canvas: Image<P>, th: nat, tw: nat, rows: nat, cols: nat, i: nat, j: nat, t: Image<P>)
    requires canvas.HasShape(Mul(rows, th), Mul(cols, tw)) && i < rows && j < cols && t.HasShape(th, tw)
    ensures Block(PasteBlock(canvas, th, tw, rows, cols, i, j, t), th, tw, rows, cols, i, j) == t
  {
    BlockFits(i, rows, th);
    BlockFits(j, cols, tw);
    var pasted := PasteBlock(canvas, th, tw, rows, cols, i, j, t);
    assert pasted == Assign(canvas, Mul(i, th), Mul(i, th) + th, Mul(j, tw), Mul(j, tw) + tw, t);
    AssignInside(canvas, Mul(i, th), Mul(j, tw), th, tw, t);
  }

  /** The assignment leaves every other block as it was. */
  lemma PasteBlockFrame<P>(canvas: Image<P>, th: nat, tw: nat, rows: nat, cols: nat, i: nat, j: nat, t: Image<P>, i': nat, j': nat)
    requires canvas.HasShape(Mul(rows, th), Mul(cols, tw)) && i < rows && j < cols && t.HasShape(th, tw)
    requires i' < rows && j' < cols && (i' != i || j' != j)
    ensures Block(PasteBlock(canvas, th, tw, rows, cols, i, j, t), th, tw, rows, cols, i', j')
         == Block(canvas, th, tw, rows, cols, i', j')
  {
    BlockFits(i, rows, th);
    BlockFits(j, cols, tw);
    BlockFits(i', rows, th);
    BlockFits(j', cols, tw);
    CellsApart(i, j, i', j', th, tw);
    var pasted := PasteBlock(canvas, th, tw, rows, cols, i, j, t);
    assert pasted == Assign(canvas, Mul(i, th), Mul(i, th) + th, Mul(j, tw), Mul(j, tw) + tw, t);
    AssignOutside(canvas, Mul(i, th), Mul(i, th) + th, Mul(j, tw), Mul(j, tw) + tw, t, Mul(i', th), Mul(j', tw), th, tw);
  }

  // ---------------------------------------------------------------------------
  // Assembly

  /** Row `r` of the first `n` blocks of block-row `i`, left to right. */
  function RowPieces<P>(blocks: seq<Image<P>>, th: nat, tw: nat, rows: nat, cols: nat, i: nat, r: nat, n: nat): (pieces: seq<seq<P>>)
    requires |blocks| == Mul(rows, cols)
    requires forall k :: 0 <= k < |blocks| ==> blocks[k].HasShape(th, tw)
    requires i < rows && r < th && n <= cols
    ensures |pieces| == n
    ensures forall j :: 0 <= j < n ==> |pieces[j]| == tw
    ensures forall j :: 0 <= j < n ==>
      && Mul(i, cols) + j < |blocks|
      && blocks[Mul(i, cols) + j].HasShape(th, tw)
      && pieces[j] == blocks[Mul(i, cols) + j].px[r]
  {
    if n == 0 then []
    else
      RowMajor(i, n - 1, rows, cols);
      assert blocks[Mul(i, cols) + n - 1].HasShape(th, tw);
      RowPieces(blocks, th, tw, rows, cols, i, r, n - 1) + [blocks[Mul(i, cols) + n - 1].px[r]]
  }

  /** Row `i * th + r` of the assembled canvas: the rows `r` of block-row `i` side by side. */
  function CanvasRow<P>(blocks: seq<Image<P>>, th: nat, tw: nat, rows: nat, cols: nat, i: nat, r: nat): (row: seq<P>)
    requires |blocks| == Mul(rows, cols)
    requires forall k :: 0 <= k < |blocks| ==> blocks[k].HasShape(th, tw)
    requires i < rows && r < th
    ensures |row| == Mul(cols, tw)
  {
    var pieces := RowPieces(blocks, th, tw, rows, cols, i, r, cols);
    FlattenLength(pieces, tw);
    Flatten(pieces)
  }

  /** The first `n` canvas rows of block-row `i`. */
  function BlockRowLines<P>(blocks: seq<Image<P>>, th: nat, tw: nat, rows: nat, cols: nat, i: nat, n: nat): (lines: seq<seq<P>>)
    requires |blocks| == Mul(rows, cols)
    requires forall k :: 0 <= k < |blocks| ==> blocks[k].HasShape(th, tw)
    requires i < rows && n <= th
    ensures |lines| == n
    ensures forall r :: 0 <= r < n ==> lines[r] == CanvasRow(blocks, th, tw, rows, cols, i, r)
  {
    if n == 0 then []
    else
      var prev := BlockRowLines(blocks, th, tw, rows, cols, i, n - 1);
      var lines := prev + [CanvasRow(blocks, th, tw, rows, cols, i, n - 1)];
      assert forall r :: 0 <= r < n - 1 ==> lines[r] == prev[r];
      lines
  }

  /** The `th` canvas rows of each of the first `n` block-rows, top to bottom. */
  function CanvasRows<P>(blocks: seq<Image<P>>, th: nat, tw: nat, rows: nat, cols: nat, n: nat): (rs: seq<seq<seq<P>>>)
    requires |blocks| == Mul(rows, cols)
    requires forall k :: 0 <= k < |blocks| ==> blocks[k].HasShape(th, tw)
    requires n <= rows
    ensures |rs| == n
    ensures forall i :: 0 <= i < n ==> rs[i] == BlockRowLines(blocks, th, tw, rows, cols, i, th)
  {
    if n == 0 then []
    else
      var prev := CanvasRows(blocks, th, tw, rows, cols, n - 1);
      var rs := prev + [BlockRowLines(blocks, th, tw, rows, cols, n - 1, th)];
      assert forall i :: 0 <= i < n - 1 ==> rs[i] == prev[i];
      rs
  }

  /** The canvas whose block (i, j) is `blocks[i * cols + j]`: the blocks laid side by
      side within a block-row, and the block-rows stacked (numpy's `np.block`). */
  function Assemble<P>(blocks: seq<Image<P>>, th: nat, tw: nat, rows: nat, cols: nat): (r: Image<P>)
    requires |blocks| == Mul(rows, cols)
    requires forall k :: 0 <= k < |blocks| ==> blocks[k].HasShape(th, tw)
    ensures r.HasShape(Mul(rows, th), Mul(cols, tw))
  {
    var rs := CanvasRows(blocks, th, tw, rows, cols, rows);
    var px := Flatten(rs);
    FlattenLength(rs, th);
    assert forall R :: 0 <= R < |px| ==> |px[R]| == Mul(cols, tw) by {
      forall R | 0 <= R < |px|
        ensures |px[R]| == Mul(cols, tw)
      {
        FlattenMembers(rs, px[R]);
      }
    }
    Image(Mul(cols, tw), px)
  }

  /** Pixel (r, c) of block (i, j) of the assembled canvas is pixel (r, c) of `blocks[i * cols + j]`. */
  lemma AssemblePixel<P>(blocks: seq<Image<P>>, th: nat, tw: nat, rows: nat, cols: nat, i: nat, j: nat, r: nat, c: nat)
    requires |blocks| == Mul(rows, cols)
    requires forall k :: 0 <= k < |blocks| ==> blocks[k].HasShape(th, tw)
    requires i < rows && j < cols && r < th && c < tw
    ensures Mul(i, cols) + j < |blocks|
    ensures Mul(i, th) + r < Mul(rows, th) && Mul(j, tw) + c < Mul(cols, tw)
    ensures Assemble(blocks, th, tw, rows, cols).px[Mul(i, th) + r][Mul(j, tw) + c] == blocks[Mul(i, cols) + j].px[r][c]
  {
    var a := Assemble(blocks, th, tw, rows, cols);
    var rs := CanvasRows(blocks, th, tw, rows, cols, rows);
    RowMajor(i, j, rows, cols);
    BlockFits(i, rows, th);
    BlockFits(j, cols, tw);
    assert a.px == Flatten(rs);
    assert rs[i] == BlockRowLines(blocks, th, tw, rows, cols, i, th);
    assert rs[i][r] == CanvasRow(blocks, th, tw, rows, cols, i, r);
    var pieces := RowPieces(blocks, th, tw, rows, cols, i, r, cols);
    assert rs[i][r] == Flatten(pieces);
    FlattenAt(rs, th, i, r);
    FlattenAt(pieces, tw, j, c);
  }

  /** Block (i, j) of the assembled canvas is `blocks[i * cols + j]`. */
  lemma AssembleBlock<P>(blocks: seq<Image<P>>, th: nat, tw: nat, rows: nat, cols: nat, i: nat, j: nat)
    requires |blocks| == Mul(rows, cols)
    requires forall k :: 0 <= k < |blocks| ==> blocks[k].HasShape(th, tw)
    requires i < rows && j < cols
    ensures Mul(i, cols) + j < |blocks|
    ensures Block(Assemble(blocks, th, tw, rows, cols), th, tw, rows, cols, i, j) == blocks[Mul(i, cols) + j]
  {
    var a := Assemble(blocks, th, tw, rows, cols);
    RowMajor(i, j, rows, cols);
    var b := Block(a, th, tw, rows, cols, i, j);
    var t := blocks[Mul(i, cols) + j];
    forall r, c | 0 <= r < th && 0 <= c < tw
      ensures b.px[r][c] == t.px[r][c]
    {
      AssemblePixel(blocks, th, tw, rows, cols, i, j, r, c);
      BlockPixel(a, th, tw, rows, cols, i, j, r, c);
    }
    Extensionality(b, t, th, tw);
  }

  // ---------------------------------------------------------------------------
  // Combining

  /** The block size: the shape of the first depadded tile, which is the first tile less
      2ov in each dimension, or 0 where that dimension is at most 2ov. */
  function CoreShape<P>(tiles: seq<Image<P>>, ov: nat): (s: (nat, nat))
    requires |tiles| > 0 && AllValid(tiles) && ov >= 1
    ensures s == (if tiles[0].Height() >= 2 * ov then tiles[0].Height() - 2 * ov else 0,
                  if tiles[0].width >= 2 * ov then tiles[0].width - 2 * ov else 0)
  {
    var first := Depad(tiles[0], ov);
    (first.Height(), first.width)
  }

  /** Whether the depadded tile `k` can be written into a block. */
  predicate Fits<P>(tiles: seq<Image<P>>, ov: nat, k: nat)
    requires |tiles| > 0 && AllValid(tiles) && ov >= 1 && k < |tiles|
  {
    Broadcastable(Depad(tiles[k], ov), CoreShape(tiles, ov).0, CoreShape(tiles, ov).1)
  }

  /** The depadded tile `k` broadcast to the block size, as numpy writes it. */
  function Fitted<P>(tiles: seq<Image<P>>, ov: nat, k: nat): (f: Image<P>)
    requires |tiles| > 0 && AllValid(tiles) && ov >= 1 && k < |tiles| && Fits(tiles, ov, k)
    ensures f.HasShape(CoreShape(tiles, ov).0, CoreShape(tiles, ov).1)
  {
    Broadcast(Depad(tiles[k], ov), CoreShape(tiles, ov).0, CoreShape(tiles, ov).1)
  }

  /** The fitted tiles `0 .. n - 1`, all of the block size. */
  function FittedTiles<P>(tiles: seq<Image<P>>, ov: nat, n: nat): (fs: seq<Image<P>>)
    requires |tiles| > 0 && AllValid(tiles) && ov >= 1 && n <= |tiles|
    requires forall k :: 0 <= k < n ==> Fits(tiles, ov, k)
    ensures |fs| == n
    ensures forall k :: 0 <= k < n ==> fs[k] == Fitted(tiles, ov, k)
    ensures forall k :: 0 <= k < n ==> fs[k].HasShape(CoreShape(tiles, ov).0, CoreShape(tiles, ov).1)
  {
    seq(n, k requires 0 <= k < n => Fitted(tiles, ov, k))
  }

  /** `CombineTiles(tiles, grid, overlap).combine_tiles(show_image=False)` stated
      declaratively. An empty list fails on `tiles[0]`. Otherwise the row-major loop stops
      at the first position that is missing (`IndexOutOfRange`) or whose tile cannot be
      broadcast into its block (`ShapeMismatch`); since every missing position comes after
      every present one, a bad present tile wins. Otherwise the canvas is the assembly of
      the first `rows * cols` fitted tiles. For a non-empty grid, later tiles change
      neither the outcome nor the image; for an empty grid, `tiles[0]` is still read for
      the canvas shape. */
  function Combine<P>(tiles: seq<Image<P>>, rows: nat, cols: nat, overlap: int): (r: Result<Image<P>>)
    requires AllValid(tiles)
    ensures |tiles| == 0 ==> r == Failure(IndexOutOfRange)
    ensures r.Success? ==>
      && |tiles| > 0 && |tiles| >= Mul(rows, cols)
      && r.value.HasShape(Mul(rows, CoreShape(tiles, ClampOverlap(overlap)).0),
                          Mul(cols, CoreShape(tiles, ClampOverlap(overlap)).1))
  {
    if |tiles| == 0 then Failure(IndexOutOfRange)
    else
      var ov := ClampOverlap(overlap);
      var n := Mul(rows, cols);
      if exists k :: 0 <= k < |tiles| && k < n && !Fits(tiles, ov, k) then
        Failure(ShapeMismatch)
      else if |tiles| < n then
        Failure(IndexOutOfRange)
      else
        var (th, tw) := CoreShape(tiles, ov);
        Success(Assemble(FittedTiles(tiles, ov, n), th, tw, rows, cols))
  }

  /** Block (i, j) of the assembled fitted tiles is the fitted tile `i * cols + j`. */
  lemma FittedBlock<P>(tiles: seq<Image<P>>, ov: nat, rows: nat, cols: nat, i: nat, j: nat)
    requires |tiles| > 0 && AllValid(tiles) && ov >= 1 && Mul(rows, cols) <= |tiles|
    requires forall k :: 0 <= k < Mul(rows, cols) ==> Fits(tiles, ov, k)
    requires i < rows && j < cols
    ensures Mul(i, cols) + j < Mul(rows, cols)
    ensures Block(Assemble(FittedTiles(tiles, ov, Mul(rows, cols)), CoreShape(tiles, ov).0, CoreShape(tiles, ov).1, rows, cols),
                  CoreShape(tiles, ov).0, CoreShape(tiles, ov).1, rows, cols, i, j)
         == Fitted(tiles, ov, Mul(i, cols) + j)
  {
    RowMajor(i, j, rows, cols);
    AssembleBlock(FittedTiles(tiles, ov, Mul(rows, cols)), CoreShape(tiles, ov).0, CoreShape(tiles, ov).1, rows, cols, i, j);
  }

  /** The canvas of a successful combination is the assembly of the fitted tiles. */
  lemma CombineAssembles<P>(tiles: seq<Image<P>>, rows: nat, cols: nat, overlap: int)
    requires AllValid(tiles) && Combine(tiles, rows, cols, overlap).Success?
    ensures |tiles| > 0 && |tiles| >= Mul(rows, cols)
    ensures forall k :: 0 <= k < Mul(rows, cols) ==> Fits(tiles, ClampOverlap(overlap), k)
    ensures Combine(tiles, rows, cols, overlap).value
         == Assemble(FittedTiles(tiles, ClampOverlap(overlap), Mul(rows, cols)),
                     CoreShape(tiles, ClampOverlap(overlap)).0, CoreShape(tiles, ClampOverlap(overlap)).1, rows, cols)
  {
  }

  /** On success, block (i, j) of the canvas is tile `i * cols + j` with its border
      stripped and broadcast to the block size. */
  lemma CombineBlock<P>(tiles: seq<Image<P>>, rows: nat, cols: nat, overlap: int, i: nat, j: nat)
    requires AllValid(tiles) && Combine(tiles, rows, cols, overlap).Success?
    requires i < rows && j < cols
    ensures Mul(i, cols) + j < |tiles| && Fits(tiles, ClampOverlap(overlap), Mul(i, cols) + j)
    ensures Block(Combine(tiles, rows, cols, overlap).value,
                  CoreShape(tiles, ClampOverlap(overlap)).0, CoreShape(tiles, ClampOverlap(overlap)).1, rows, cols, i, j)
         == Fitted(tiles, ClampOverlap(overlap), Mul(i, cols) + j)
  {
    CombineAssembles(tiles, rows, cols, overlap);
    FittedBlock(tiles, ClampOverlap(overlap), rows, cols, i, j);
  }

  /** Combining succeeds exactly when the list is non-empty, holds at least `rows * cols`
      tiles, and each of the first `rows * cols` fits its block. */
  lemma CombineSucceeds<P>(tiles: seq<Image<P>>, rows: nat, cols: nat, overlap: int)
    requires AllValid(tiles)
    ensures Combine(tiles, rows, cols, overlap).Success? <==>
      |tiles| > 0 && |tiles| >= Mul(rows, cols) &&
      forall k :: 0 <= k < Mul(rows, cols) ==> Fits(tiles, ClampOverlap(overlap), k)
  {
  }

  /** Two lists of tiles of the same length whose tiles have pairwise the same shape. */
  predicate SameShapes<P, Q>(a: seq<Image<P>>, b: seq<Image<Q>>) {
    && |a| == |b|
    && forall k :: 0 <= k < |a| ==> a[k].Height() == b[k].Height() && a[k].width == b[k].width
  }

  /** Whether combining succeeds, and with which error it fails, depends only on the
      shapes of the tiles, never on their pixels. */
  lemma CombineOutcomeByShape<P, Q>(a: seq<Image<P>>, b: seq<Image<Q>>, rows: nat, cols: nat, overlap: int)
    requires AllValid(a) && AllValid(b) && SameShapes(a, b)
    ensures Combine(a, rows, cols, overlap).Success? <==> Combine(b, rows, cols, overlap).Success?
    ensures Combine(a, rows, cols, overlap).Failure? ==>
      Combine(a, rows, cols, overlap).error == Combine(b, rows, cols, overlap).error
  {
    if |a| > 0 {
      var ov := ClampOverlap(overlap);
      assert CoreShape(a, ov) == CoreShape(b, ov);
      forall k | 0 <= k < |a|
        ensures Fits(a, ov, k) <==> Fits(b, ov, k)
      {
        assert Depad(a[k], ov).Height() == Depad(b[k], ov).Height();
        assert Depad(a[k], ov).width == Depad(b[k], ov).width;
      }
    }
  }

  /** For a non-empty grid, tiles beyond the first `rows * cols` change neither the
      outcome nor the image. (They are still converted and depadded, which has no effect
      on either.) */
  lemma CombineIgnoresExtra<P>(tiles: seq<Image<P>>, rows: nat, cols: nat, overlap: int)
    requires AllValid(tiles) && 0 < Mul(rows, cols) <= |tiles|
    ensures Combine(tiles, rows, cols, overlap) == Combine(tiles[..Mul(rows, cols)], rows, cols, overlap)
  {
    var ov := ClampOverlap(overlap);
    var n := Mul(rows, cols);
    var short := tiles[..n];
    assert short[0] == tiles[0];
    assert CoreShape(short, ov) == CoreShape(tiles, ov);
    forall k | 0 <= k < n
      ensures Fits(short, ov, k) == Fits(tiles, ov, k)
    {
      assert short[k] == tiles[k];
    }
    if forall k :: 0 <= k < n ==> Fits(tiles, ov, k) {
      forall k | 0 <= k < n
        ensures FittedTiles(short, ov, n)[k] == FittedTiles(tiles, ov, n)[k]
      {
        assert short[k] == tiles[k];
      }
      assert FittedTiles(short, ov, n) == FittedTiles(tiles, ov, n);
    } else {
      var k :| 0 <= k < n && !Fits(tiles, ov, k);
      assert !Fits(short, ov, k);
    }
  }

  /** The first `n` tiles fit and sit in their blocks of `canvas`: what the loop of
      `combine_tiles` has established after `n` assignments. */
  ghost predicate Filled<P>(canvas: Image<P>, tiles: seq<Image<P>>, ov: nat, rows: nat, cols: nat, n: nat)
    requires |tiles| > 0 && AllValid(tiles) && ov >= 1 && n <= |tiles| && n <= Mul(rows, cols)
    requires canvas.HasShape(Mul(rows, CoreShape(tiles, ov).0), Mul(cols, CoreShape(tiles, ov).1))
  {
    forall k :: 0 <= k < n ==>
      Fits(tiles, ov, k) && BlockAt(canvas, CoreShape(tiles, ov).0, CoreShape(tiles, ov).1, rows, cols, k) == Fitted(tiles, ov, k)
  }

  /** Assigning the next tile to its block extends the filled prefix by one and keeps the
      blocks already written. */
  lemma PasteKeeps<P>(canvas: Image<P>, tiles: seq<Image<P>>, ov: nat, rows: nat, cols: nat, i: nat, j: nat)
    requires |tiles| > 0 && AllValid(tiles) && ov >= 1 && i < rows && j < cols
    requires Mul(i, cols) + j < |tiles| && Mul(i, cols) + j < Mul(rows, cols)
    requires canvas.HasShape(Mul(rows, CoreShape(tiles, ov).0), Mul(cols, CoreShape(tiles, ov).1))
    requires Filled(canvas, tiles, ov, rows, cols, Mul(i, cols) + j) && Fits(tiles, ov, Mul(i, cols) + j)
    ensures Filled(PasteBlock(canvas, CoreShape(tiles, ov).0, CoreShape(tiles, ov).1, rows, cols, i, j, Fitted(tiles, ov, Mul(i, cols) + j)),
                   tiles, ov, rows, cols, Mul(i, cols) + j + 1)
  {
    var (th, tw) := CoreShape(tiles, ov);
    var done := Mul(i, cols) + j;
    var t := Fitted(tiles, ov, done);
    var pasted := PasteBlock(canvas, th, tw, rows, cols, i, j, t);
    RowMajor(i, j, rows, cols);
    forall k | 0 <= k < done + 1
      ensures Fits(tiles, ov, k) && BlockAt(pasted, th, tw, rows, cols, k) == Fitted(tiles, ov, k)
    {
      RowMajorInverse(k, rows, cols);
      if k == done {
        PasteBlockHit(canvas, th, tw, rows, cols, i, j, t);
      } else {
        assert BlockAt(canvas, th, tw, rows, cols, k) == Fitted(tiles, ov, k);
        PasteBlockFrame(canvas, th, tw, rows, cols, i, j, t, Quot(k, cols), Rem(k, cols));
      }
    }
  }

  /** A canvas with every block filled is the assembly of the fitted tiles. */
  lemma FilledAssembles<P>(canvas: Image<P>, tiles: seq<Image<P>>, ov: nat, rows: nat, cols: nat)
    requires |tiles| > 0 && AllValid(tiles) && ov >= 1 && Mul(rows, cols) <= |tiles|
    requires canvas.HasShape(Mul(rows, CoreShape(tiles, ov).0), Mul(cols, CoreShape(tiles, ov).1))
    requires Filled(canvas, tiles, ov, rows, cols, Mul(rows, cols))
    ensures canvas == Assemble(FittedTiles(tiles, ov, Mul(rows, cols)), CoreShape(tiles, ov).0, CoreShape(tiles, ov).1, rows, cols)
  {
    var (th, tw) := CoreShape(tiles, ov);
    var assembled := Assemble(FittedTiles(tiles, ov, Mul(rows, cols)), th, tw, rows, cols);
    forall i, j | 0 <= i < rows && 0 <= j < cols
      ensures Block(canvas, th, tw, rows, cols, i, j) == Block(assembled, th, tw, rows, cols, i, j)
    {
      FittedBlock(tiles, ov, rows, cols, i, j);
      RowMajor(i, j, rows, cols);
      assert BlockAt(canvas, th, tw, rows, cols, Mul(i, cols) + j) == Fitted(tiles, ov, Mul(i, cols) + j);
    }
    BlocksDetermine(canvas, assembled, th, tw, rows, cols);
  }

  /** `combine_tiles` the way the source runs it: depad, allocate a zero canvas from the
      first tile's shape, then for every row `i` and, inside it, every column `j`, read
      `tiles[i * cols + j]` and assign it to block (i, j). */
  method CombineTiles<P>(tiles: seq<Image<P>>, zero: P, rows: nat, cols: nat, overlap: int) returns (r: Result<Image<P>>)
    requires AllValid(tiles)
    ensures r == Combine(tiles, rows, cols, overlap)
  {
    if |tiles| == 0 {
      return Failure(IndexOutOfRange);
    }
    var ov := ClampOverlap(overlap);
    var (th, tw) := CoreShape(tiles, ov);
    var canvas := Zeros(Mul(rows, th), Mul(cols, tw), zero);
    var i := 0;
    while i < rows
      invariant i <= rows && Mul(i, cols) <= Mul(rows, cols) && Mul(i, cols) <= |tiles|
      invariant canvas.HasShape(Mul(rows, th), Mul(cols, tw))
      invariant Filled(canvas, tiles, ov, rows, cols, Mul(i, cols))
    {
      var j := 0;
      while j < cols
        invariant j <= cols && Mul(i, cols) + j <= Mul(rows, cols) && Mul(i, cols) + j <= |tiles|
        invariant canvas.HasShape(Mul(rows, th), Mul(cols, tw))
        invariant Filled(canvas, tiles, ov, rows, cols, Mul(i, cols) + j)
      {
        var next := Mul(i, cols) + j;
        RowMajor(i, j, rows, cols);
        if next >= |tiles| {
          return Failure(IndexOutOfRange);
        }
        var d := Depad(tiles[next], ov);
        if !Broadcastable(d, th, tw) {
          assert !Fits(tiles, ov, next);
          return Failure(ShapeMismatch);
        }
        PasteKeeps(canvas, tiles, ov, rows, cols, i, j);
        canvas := PasteBlock(canvas, th, tw, rows, cols, i, j, Broadcast(d, th, tw));
        j := j + 1;
      }
      MulSucc(i, cols);
      i := i + 1;
    }
    FilledAssembles(canvas, tiles, ov, rows, cols);
    return Success(canvas);
  }
}

=== FILE: dist.dfy ===
/** The older copy of the tiler shipped under `dist/`: the same splitting and combining,
    with no dtype conversion, except that the canvas of `combine_tiles` is always
    `np.zeros(..., dtype=np.uint8)`. Writing a tile into that canvas casts its values to
    `uint8`, so a combined image is always `uint8` whatever the tiles held. */
module DistTiler {
  import opened Images
  import opened GridArith
  import opened Tiling
  import opened Splitter
  import opened Combiner
  import opened RoundTrip
  import opened Uint8
  import opened Uint8Split

  /** dist's `combine_tiles(show_image=False)`: the canvas of `Combine` held as `uint8`. */
  function DistCombine(tiles: seq<Image<Pixel>>, rows: nat, cols: nat, overlap: int): (r: Result<Image<Pixel>>)
    requires AllValid(tiles)
    ensures r.Success? <==> Combine(tiles, rows, cols, overlap).Success?
    ensures r.Failure? ==> r.error == Combine(tiles, rows, cols, overlap).error
    ensures r.Success? ==> r.value.Valid() && IsUint8(r.value)
    ensures r.Success? ==> r.value.HasShape(Combine(tiles, rows, cols, overlap).value.Height(),
                                            Combine(tiles, rows, cols, overlap).value.width)
  {
    match Combine(tiles, rows, cols, overlap)
    case Failure(e) => Failure(e)
    case Success(canvas) => Success(ToUint8(canvas))
  }

  /** Casting a tile and then stripping its border is stripping the border and casting. */
  lemma DepadCast(t: Image<Pixel>, ov: nat)
    requires t.Valid() && ov >= 1
    ensures Depad(ToUint8(t), ov) == ToUint8(Depad(t, ov))
  {
    var a := Depad(ToUint8(t), ov);
    var b := ToUint8(Depad(t, ov));
    forall r, c | 0 <= r < b.Height() && 0 <= c < b.width
      ensures a.px[r][c] == b.px[r][c]
    {
      DepadPixel(ToUint8(t), ov, r, c);
      DepadPixel(t, ov, r, c);
    }
    Extensionality(a, b, b.Height(), b.width);
  }

  /** Casting commutes with broadcasting. */
  lemma BroadcastCast(t: Image<Pixel>, h: nat, w: nat)
    requires t.Valid() && Broadcastable(t, h, w)
    ensures Broadcast(ToUint8(t), h, w) == ToUint8(Broadcast(t, h, w))
  {
    BroadcastMap(t, h, w, CastPixel);
  }

  /** Casting a tile before it is depadded and broadcast is casting the fitted tile. */
  lemma FittedCast(tiles: seq<Image<Pixel>>, ov: nat, k: nat)
    requires |tiles| > 0 && AllValid(tiles) && ov >= 1 && k < |tiles| && Fits(tiles, ov, k)
    ensures CoreShape(ToUint8All(tiles), ov) == CoreShape(tiles, ov)
    ensures Fits(ToUint8All(tiles), ov, k)
    ensures Fitted(ToUint8All(tiles), ov, k) == ToUint8(Fitted(tiles, ov, k))
  {
    var us := ToUint8All(tiles);
    DepadCast(tiles[0], ov);
    DepadCast(tiles[k], ov);
    var (h, w) := CoreShape(tiles, ov);
    BroadcastCast(Depad(tiles[k], ov), h, w);
  }

  /** Casting a canvas and then cutting a block is cutting the block and casting it. */
  lemma BlockCast(img: Image<Pixel>, th: nat, tw: nat, rows: nat, cols: nat, i: nat, j: nat)
    requires img.HasShape(Mul(rows, th), Mul(cols, tw)) && i < rows && j < cols
    ensures Block(ToUint8(img), th, tw, rows, cols, i, j) == ToUint8(Block(img, th, tw, rows, cols, i, j))
  {
    var a := Block(ToUint8(img), th, tw, rows, cols, i, j);
    var b := ToUint8(Block(img, th, tw, rows, cols, i, j));
    forall r, c | 0 <= r < th && 0 <= c < tw
      ensures a.px[r][c] == b.px[r][c]
    {
      BlockPixel(ToUint8(img), th, tw, rows, cols, i, j, r, c);
      BlockPixel(img, th, tw, rows, cols, i, j, r, c);
    }
    Extensionality(a, b, th, tw);
  }

  /** Assembling cast blocks is casting the assembled canvas. */
  lemma AssembleCast(blocks: seq<Image<Pixel>>, cast: seq<Image<Pixel>>, th: nat, tw: nat, rows: nat, cols: nat)
    requires |blocks| == Mul(rows, cols) && |cast| == |blocks|
    requires forall k :: 0 <= k < |blocks| ==>
      blocks[k].HasShape(th, tw) && cast[k].HasShape(th, tw) && cast[k] == ToUint8(blocks[k])
    ensures Assemble(cast, th, tw, rows, cols) == ToUint8(Assemble(blocks, th, tw, rows, cols))
  {
    var a := Assemble(cast, th, tw, rows, cols);
    var b := Assemble(blocks, th, tw, rows, cols);
    forall i, j | 0 <= i < rows && 0 <= j < cols
      ensures Block(a, th, tw, rows, cols, i, j) == Block(ToUint8(b), th, tw, rows, cols, i, j)
    {
      AssembleBlock(cast, th, tw, rows, cols, i, j);
      AssembleBlock(blocks, th, tw, rows, cols, i, j);
      BlockCast(b, th, tw, rows, cols, i, j);
    }
    BlocksDetermine(a, ToUint8(b), th, tw, rows, cols);
  }

  /** The fitted tiles of the cast list are the cast fitted tiles. */
  lemma FittedTilesCast(tiles: seq<Image<Pixel>>, ov: nat, n: nat)
    requires |tiles| > 0 && AllValid(tiles) && ov >= 1 && n <= |tiles|
    requires forall k :: 0 <= k < n ==> Fits(tiles, ov, k)
    ensures CoreShape(ToUint8All(tiles), ov) == CoreShape(tiles, ov)
    ensures forall k :: 0 <= k < n ==> Fits(ToUint8All(tiles), ov, k)
    ensures forall k :: 0 <= k < n ==>
      && FittedTiles(tiles, ov, n)[k].HasShape(CoreShape(tiles, ov).0, CoreShape(tiles, ov).1)
      && FittedTiles(ToUint8All(tiles), ov, n)[k].HasShape(CoreShape(tiles, ov).0, CoreShape(tiles, ov).1)
      && FittedTiles(ToUint8All(tiles), ov, n)[k] == ToUint8(FittedTiles(tiles, ov, n)[k])
  {
    DepadCast(tiles[0], ov);
    forall k | 0 <= k < n
      ensures Fits(ToUint8All(tiles), ov, k) && Fitted(ToUint8All(tiles), ov, k) == ToUint8(Fitted(tiles, ov, k))
    {
      FittedCast(tiles, ov, k);
    }
  }

  /** Casting the finished canvas is what numpy does when it casts every tile as it is
      written into the `uint8` canvas: both give the same result, and the same errors. */
  lemma DistCombineCastsEachTile(tiles: seq<Image<Pixel>>, rows: nat, cols: nat, overlap: int)
    requires AllValid(tiles)
    ensures DistCombine(tiles, rows, cols, overlap) == Combine(ToUint8All(tiles), rows, cols, overlap)
  {
    var us := ToUint8All(tiles);
    CombineOutcomeByShape(us, tiles, rows, cols, overlap);
    if Combine(tiles, rows, cols, overlap).Success? {
      var ov := ClampOverlap(overlap);
      var n := Mul(rows, cols);
      CombineAssembles(tiles, rows, cols, overlap);
      CombineAssembles(us, rows, cols, overlap);
      FittedTilesCast(tiles, ov, n);
      AssembleCast(FittedTiles(tiles, ov, n), FittedTiles(us, ov, n), CoreShape(tiles, ov).0, CoreShape(tiles, ov).1, rows, cols);
    }
  }

  /** Combining the tiles of a split gives back the grid-padded image with every value
      cast to `uint8`. */
  lemma DistRoundTripCast(img: Image<Pixel>, zero: Pixel, rows: nat, cols: nat, overlap: int)
    requires img.Valid() && rows > 0 && cols > 0
    ensures Split(img, zero, rows, cols, overlap).Success?
    ensures AllValid(Split(img, zero, rows, cols, overlap).value)
    ensures DistCombine(Split(img, zero, rows, cols, overlap).value, rows, cols, overlap)
         == Success(ToUint8(GridPad(img, zero, rows, cols)))
  {
    CombineSplit(img, zero, rows, cols, overlap);
  }

  /** For a `uint8` image padded with a byte zero, the round trip gives back the
      grid-padded image. */
  lemma DistRoundTrip(img: Image<Pixel>, zero: Pixel, rows: nat, cols: nat, overlap: int)
    requires img.Valid() && IsUint8(img) && ByteValued(zero) && rows > 0 && cols > 0
    ensures Split(img, zero, rows, cols, overlap).Success?
    ensures AllValid(Split(img, zero, rows, cols, overlap).value)
    ensures DistCombine(Split(img, zero, rows, cols, overlap).value, rows, cols, overlap)
         == Success(GridPad(img, zero, rows, cols))
  {
    DistRoundTripCast(img, zero, rows, cols, overlap);
    GridPadUint8(img, zero, rows, cols);
    ToUint8Identity(GridPad(img, zero, rows, cols));
  }

  /** Cropping the combined tiles of a `uint8` image to its height and width gives the
      image back. */
  lemma DistCropRoundTrip(img: Image<Pixel>, zero: Pixel, rows: nat, cols: nat, overlap: int)
    requires img.Valid() && IsUint8(img) && ByteValued(zero) && rows > 0 && cols > 0
    ensures Split(img, zero, rows, cols, overlap).Success?
    ensures AllValid(Split(img, zero, rows, cols, overlap).value)
    ensures DistCombine(Split(img, zero, rows, cols, overlap).value, rows, cols, overlap).Success?
    ensures Crop(DistCombine(Split(img, zero, rows, cols, overlap).value, rows, cols, overlap).value,
                 0, img.Height(), 0, img.width) == img
  {
    DistRoundTrip(img, zero, rows, cols, overlap);
    GridPadCropsBack(img, zero, rows, cols);
  }

  /** The script `test.py` run on the `dist/` classes, without previews: a zero grid
      dimension stops it at the split; otherwise it ends with the grid-padded image cast to
      `uint8`, which for a `uint8` image padded with a byte zero is the grid-padded image
      itself, and cropped to the original height and width is the image again. */
  function DistSplitThenCombine(img: Image<Pixel>, zero: Pixel, rows: nat, cols: nat, overlap: int): (r: Result<Image<Pixel>>)
    requires img.Valid()
    ensures rows == 0 || cols == 0 ==> r == Failure(DivisionByZero)
    ensures rows > 0 && cols > 0 ==> r == Success(ToUint8(GridPad(img, zero, rows, cols)))
    ensures rows > 0 && cols > 0 && IsUint8(img) && ByteValued(zero) ==>
      r == Success(GridPad(img, zero, rows, cols)) && Crop(r.value, 0, img.Height(), 0, img.width) == img
  {
    match Split(img, zero, rows, cols, overlap)
    case Failure(e) => Failure(e)
    case Success(tiles) =>
      DistRoundTripCast(img, zero, rows, cols, overlap);
      assert IsUint8(img) && ByteValued(zero) ==>
        && DistCombine(tiles, rows, cols, overlap) == Success(GridPad(img, zero, rows, cols))
        && Crop(GridPad(img, zero, rows, cols), 0, img.Height(), 0, img.width) == img by {
        if IsUint8(img) && ByteValued(zero) {
          DistRoundTrip(img, zero, rows, cols, overlap);
          DistCropRoundTrip(img, zero, rows, cols, overlap);
        }
      }
      DistCombine(tiles, rows, cols, overlap)
  }
}

=== FILE: grid_arith.dfy ===
/** Integer facts about row-major grids of equally sized blocks: the offset `i * th` of
    block `i`, and the position `i * cols + j` of cell (i, j) in row-major order.

    Products, quotients and remainders of grid quantities are written with `Mul`, `Quot`
    and `Rem`, defined by repeated addition and subtraction. Each agrees with the built-in
    operator (MulIsProduct, QuotRemIsDivMod); the verifier uses them through the lemmas
    below only, which keeps the proofs about images in linear arithmetic. They are a proof
    device: everywhere in the model, read `Mul(a, b)`, `Quot(k, d)` and `Rem(k, d)` as
    `a * b`, `k / d` and `k % d`. */
module GridArith {

  /** `a * b`: `a` blocks of size `b`. */
  function Mul(a: nat, b: nat): nat {
    Repeated(a, b)
  }

  /** `k // d` for a positive `d`. */
  function Quot(k: nat, d: nat): nat
    requires d > 0
  {
    Subtractions(k, d)
  }

  /** `k % d` for a positive `d`. */
  function Rem(k: nat, d: nat): nat
    requires d > 0
  {
    Leftover(k, d)
  }

  /** `b` added up `a` times. */
  function Repeated(a: nat, b: nat): nat {
    if a == 0 then 0 else Repeated(a - 1, b) + b
  }

  /** How many times `d` can be taken from `k`. */
  function Subtractions(k: nat, d: nat): nat
    requires d > 0
  {
    if k < d then 0 else 1 + Subtractions(k - d, d)
  }

  /** What is left of `k` once `d` can no longer be taken from it. */
  function Leftover(k: nat, d: nat): nat
    requires d > 0
  {
    if k < d then k else Leftover(k - d, d)
  }

  lemma {:induction false} MulIsProduct(a: nat, b: nat)
    ensures Mul(a, b) == a * b
  {
    if a > 0 {
      MulIsProduct(a - 1, b);
    }
  }

  lemma MulSucc(a: nat, b: nat)
    ensures Mul(a + 1, b) == Mul(a, b) + b
  {
  }

  lemma MulComm(a: nat, b: nat)
    ensures Mul(a, b) == Mul(b, a)
  {
    MulIsProduct(a, b);
    MulIsProduct(b, a);
  }

  lemma {:induction false} MulMonotone(a: nat, b: nat, k: nat)
    requires a <= b
    ensures Mul(a, k) <= Mul(b, k)
  {
    if a < b {
      MulMonotone(a, b - 1, k);
    }
  }

  lemma {:induction false} MulZero(a: nat, b: nat)
    ensures Mul(a, b) == 0 <==> a == 0 || b == 0
  {
    if a > 0 {
      MulZero(a - 1, b);
    }
  }

  /** Block `i` of size `th` lies inside `rows` blocks. */
  lemma BlockFits(i: nat, rows: nat, th: nat)
    requires i < rows
    ensures Mul(i, th) + th <= Mul(rows, th)
  {
    MulMonotone(i + 1, rows, th);
  }

  /** Distinct blocks of equal size lie one entirely before the other. */
  lemma BlocksApart(i: nat, i': nat, th: nat)
    requires i != i'
    ensures Mul(i', th) + th <= Mul(i, th) || Mul(i, th) + th <= Mul(i', th)
  {
    if i' < i {
      MulMonotone(i' + 1, i, th);
    } else {
      MulMonotone(i + 1, i', th);
    }
  }

  /** Distinct cells of a grid of `th x tw` blocks are apart in rows or in columns. */
  lemma CellsApart(i: nat, j: nat, i': nat, j': nat, th: nat, tw: nat)
    requires i != i' || j != j'
    ensures Mul(i', th) + th <= Mul(i, th) || Mul(i, th) + th <= Mul(i', th) ||
            Mul(j', tw) + tw <= Mul(j, tw) || Mul(j, tw) + tw <= Mul(j', tw)
  {
    if i != i' {
      BlocksApart(i, i', th);
    } else {
      BlocksApart(j, j', tw);
    }
  }

  /** Quotient and remainder decompose `k`. */
  lemma {:induction false} QuotRem(k: nat, d: nat)
    requires d > 0
    ensures Mul(Quot(k, d), d) + Rem(k, d) == k && Rem(k, d) < d
  {
    if k >= d {
      QuotRem(k - d, d);
    }
  }

  /** The decomposition is unique: `q * d + r` with `r < d` has quotient `q` and remainder `r`. */
  lemma {:induction false} QuotRemUnique(q: nat, r: nat, d: nat)
    requires r < d
    ensures Quot(Mul(q, d) + r, d) == q && Rem(Mul(q, d) + r, d) == r
  {
    if q > 0 {
      QuotRemUnique(q - 1, r, d);
    }
  }

  /** Quotient and remainder by a positive divisor are unique (built-in operators). */
  lemma DivModUnique(n: nat, d: nat, q: nat, r: nat)
    requires d > 0 && r < d && n == q * d + r
    ensures n / d == q && n % d == r
  {
    MulIsProduct(q, d);
    QuotRemUnique(q, r, d);
    QuotRemIsDivMod(n, d);
  }

  /** `Quot` and `Rem` are Python's `//` and `%` on naturals. */
  lemma QuotRemIsDivMod(k: nat, d: nat)
    requires d > 0
    ensures Quot(k, d) == k / d && Rem(k, d) == k % d
  {
    var q, r := k / d, k % d;
    assert k == q * d + r;
    MulIsProduct(q, d);
    QuotRemUnique(q, r, d);
  }

  /** `i * cols + j` enumerates a rows-by-cols grid in row-major order without gaps. */
  lemma RowMajor(i: nat, j: nat, rows: nat, cols: nat)
    requires i < rows && j < cols
    ensures Mul(i, cols) + j < Mul(rows, cols)
    ensures Quot(Mul(i, cols) + j, cols) == i && Rem(Mul(i, cols) + j, cols) == j
  {
    BlockFits(i, rows, cols);
    QuotRemUnique(i, j, cols);
  }

  /** The inverse direction of RowMajor: position `k` is row `k // cols`, column `k % cols`. */
  lemma RowMajorInverse(k: nat, rows: nat, cols: nat)
    requires k < Mul(rows, cols)
    ensures cols > 0
    ensures Quot(k, cols) < rows && Rem(k, cols) < cols
    ensures Mul(Quot(k, cols), cols) + Rem(k, cols) == k
  {
    MulZero(rows, cols);
    QuotRem(k, cols);
    if Quot(k, cols) >= rows {
      MulMonotone(rows, Quot(k, cols), cols);
    }
  }

  /** Distinct cells have distinct row-major positions. */
  lemma RowMajorUnique(i: nat, j: nat, i': nat, j': nat, cols: nat)
    requires j < cols && j' < cols && Mul(i, cols) + j == Mul(i', cols) + j'
    ensures i == i' && j == j'
  {
    QuotRemUnique(i, j, cols);
    QuotRemUnique(i', j', cols);
  }
}

=== FILE: images.dfy ===
/** Two-dimensional pixel buffers and the numpy operations the tiler applies to them:
    basic slicing with Python's bound rules, constant padding, slice assignment and
    broadcasting of a right-hand side into a slice.

    The channel axis of the original arrays is never sliced or padded, so a pixel is an
    opaque value of a type parameter `P` (a channel vector in the wrappers). */
module Images {
  import opened GridArith

  /** An image of `|px|` rows of `width` pixels each. The width is stored explicitly so
      that an image with no rows still has one, as a numpy array of shape (0, w) does. */
  datatype Image<P> = Image(width: nat, px: seq<seq<P>>) {

    function Height(): nat {
      |px|
    }

    /** Every row has exactly `width` pixels (numpy arrays are always rectangular). */
    predicate Valid() {
      forall r :: 0 <= r < |px| ==> |px[r]| == width
    }

    predicate HasShape(h: nat, w: nat) {
      Valid() && Height() == h && width == w
    }
  }

  predicate AllValid<P>(imgs: seq<Image<P>>) {
    forall k :: 0 <= k < |imgs| ==> imgs[k].Valid()
  }

  /** Two images of the same shape that agree on every pixel are equal. */
  lemma Extensionality<P>(a: Image<P>, b: Image<P>, h: nat, w: nat)
    requires a.HasShape(h, w) && b.HasShape(h, w)
    requires forall r, c :: 0 <= r < h && 0 <= c < w ==> a.px[r][c] == b.px[r][c]
    ensures a == b
  {
    forall r | 0 <= r < h
      ensures a.px[r] == b.px[r]
    {
    }
  }

  /** `n` copies of `x`. */
  function Fill<T>(n: nat, x: T): (s: seq<T>)
    ensures |s| == n
    ensures forall k :: 0 <= k < n ==> s[k] == x
  {
    if n == 0 then [] else Fill(n - 1, x) + [x]
  }

  /** Python's normalisation of one bound of a step-1 slice of a sequence of length n:
      a negative bound counts from the end, and the result is clamped into [0, n]. */
  function SliceIndex(k: int, n: nat): (r: nat)
    ensures r <= n
    ensures 0 <= k <= n ==> r == k
    ensures k < 0 && 0 <= n + k ==> r == n + k
  {
    if k < 0 then (if k + n < 0 then 0 else k + n)
    else if k > n then n
    else k
  }

  /** Number of elements `s[start:stop]` has when `|s| == n`. */
  function SliceLength(n: nat, start: int, stop: int): nat {
    var a := SliceIndex(start, n);
    var b := SliceIndex(stop, n);
    if a <= b then b - a else 0
  }

  /** numpy's `img[r1:r2, c1:c2]` on an image: the rectangle between the normalised
      bounds, empty in a dimension whose normalised start lies past its stop (CropPixel). */
  function Crop<P>(img: Image<P>, r1: int, r2: int, c1: int, c2: int): (t: Image<P>)
    requires img.Valid()
    ensures t.HasShape(SliceLength(img.Height(), r1, r2), SliceLength(img.width, c1, c2))
  {
    Sub(img, SliceIndex(r1, img.Height()), SliceIndex(c1, img.width),
        SliceLength(img.Height(), r1, r2), SliceLength(img.width, c1, c2))
  }

  /** Pixel (r, c) of a crop is pixel (R, C) = (r1 + r, c1 + c) of the image, bounds
      normalised. */
  lemma CropPixel<P>(img: Image<P>, r1: int, r2: int, c1: int, c2: int, r: nat, c: nat, R: nat, C: nat)
    requires img.Valid() && r < SliceLength(img.Height(), r1, r2) && c < SliceLength(img.width, c1, c2)
    requires R == SliceIndex(r1, img.Height()) + r && C == SliceIndex(c1, img.width) + c
    ensures R < img.Height() && C < img.width
    ensures Crop(img, r1, r2, c1, c2).px[r][c] == img.px[R][C]
  {
    SubPixel(img, SliceIndex(r1, img.Height()), SliceIndex(c1, img.width),
             SliceLength(img.Height(), r1, r2), SliceLength(img.width, c1, c2), r, c);
  }

  /** The `h x w` rectangle of `img` whose top-left pixel is (r0, c0): the rectangle one
      row shorter, and below it the last row cut to columns `[c0, c0 + w)`. */
  function Sub<P>(img: Image<P>, r0: nat, c0: nat, h: nat, w: nat): (t: Image<P>)
    requires img.Valid() && r0 + h <= img.Height() && c0 + w <= img.width
    ensures t.HasShape(h, w)
  {
    if h == 0 then Image(w, [])
    else
      var top := Sub(img, r0, c0, h - 1, w);
      Image(w, top.px + [img.px[r0 + h - 1][c0 .. c0 + w]])
  }

  /** Pixel (r, c) of the rectangle is pixel (r0 + r, c0 + c) of the image. */
  lemma {:induction false} SubPixel<P>(img: Image<P>, r0: nat, c0: nat, h: nat, w: nat, r: nat, c: nat)
    requires img.Valid() && r0 + h <= img.Height() && c0 + w <= img.width
    requires r < h && c < w
    ensures Sub(img, r0, c0, h, w).px[r][c] == img.px[r0 + r][c0 + c]
  {
    if r < h - 1 {
      SubPixel(img, r0, c0, h - 1, w, r, c);
    }
  }

  /** A slice whose bounds lie inside the image is exactly the rectangle they name. */
  lemma CropInside<P>(img: Image<P>, r1: nat, r2: nat, c1: nat, c2: nat)
    requires img.Valid()
    requires r1 <= r2 <= img.Height() && c1 <= c2 <= img.width
    ensures Crop(img, r1, r2, c1, c2) == Sub(img, r1, c1, r2 - r1, c2 - c1)
  {
    assert SliceIndex(r1, img.Height()) == r1 && SliceIndex(r2, img.Height()) == r2;
    assert SliceIndex(c1, img.width) == c1 && SliceIndex(c2, img.width) == c2;
  }

  /** The pixel at (r, c) of `img`, read with zero extension beyond its edges. */
  function PixelOr<P>(img: Image<P>, zero: P, r: int, c: int): P
    requires img.Valid()
  {
    if 0 <= r < img.Height() && 0 <= c < img.width then img.px[r][c] else zero
  }

  /** Row `i` of `Pad(img, zero, top, _, left, right)`. */
  function PadRow<P>(img: Image<P>, zero: P, top: nat, left: nat, right: nat, i: nat): (row: seq<P>)
    requires img.Valid()
    ensures |row| == left + img.width + right
  {
    if top <= i < top + img.Height() then Fill(left, zero) + img.px[i - top] + Fill(right, zero)
    else Fill(left + img.width + right, zero)
  }

  /** Element `j` of row `i` of the padding is pixel (x, y) = (i - top, j - left) of the
      image, or `zero` outside it. */
  lemma PadRowAt<P>(img: Image<P>, zero: P, top: nat, left: nat, right: nat, i: nat, j: nat, x: int, y: int)
    requires img.Valid() && j < left + img.width + right
    requires x == i - top && y == j - left
    ensures PadRow(img, zero, top, left, right, i)[j] == PixelOr(img, zero, x, y)
  {
    if top <= i < top + img.Height() {
      var mid := Fill(left, zero) + img.px[i - top];
      assert PadRow(img, zero, top, left, right, i) == mid + Fill(right, zero);
      if j < left + img.width {
        assert (mid + Fill(right, zero))[j] == mid[j];
      } else {
        assert (mid + Fill(right, zero))[j] == Fill(right, zero)[j - left - img.width];
      }
    }
  }

  /** The first `n` rows of `Pad(img, zero, top, _, left, right)`. */
  function PadRows<P>(img: Image<P>, zero: P, top: nat, left: nat, right: nat, n: nat): (rows: seq<seq<P>>)
    requires img.Valid()
    ensures |rows| == n
    ensures forall i :: 0 <= i < n ==> |rows[i]| == left + img.width + right
  {
    if n == 0 then [] else PadRows(img, zero, top, left, right, n - 1) + [PadRow(img, zero, top, left, right, n - 1)]
  }

  /** Row `i` of the first `n` rows is `PadRow(.., i)`. */
  lemma {:induction false} PadRowsAt<P>(img: Image<P>, zero: P, top: nat, left: nat, right: nat, n: nat, i: nat)
    requires img.Valid() && i < n
    ensures PadRows(img, zero, top, left, right, n)[i] == PadRow(img, zero, top, left, right, i)
  {
    if i < n - 1 {
      PadRowsAt(img, zero, top, left, right, n - 1, i);
    }
  }

  /** numpy's `np.pad(img, ((top, bottom), (left, right)), 'constant', constant_values=0)`,
      with `zero` the all-zero pixel: the image moves by (top, left) and every new cell is
      zero (PadPixel). */
  function Pad<P>(img: Image<P>, zero: P, top: nat, bottom: nat, left: nat, right: nat): (r: Image<P>)
    requires img.Valid()
    ensures r.HasShape(top + img.Height() + bottom, left + img.width + right)
  {
    Image(left + img.width + right, PadRows(img, zero, top, left, right, top + img.Height() + bottom))
  }

  /** Pixel (i, j) of the padded image is pixel (x, y) = (i - top, j - left) of the
      original, or `zero` where that lies outside it. */
  lemma PadPixel<P>(img: Image<P>, zero: P, top: nat, bottom: nat, left: nat, right: nat, i: nat, j: nat, x: int, y: int)
    requires img.Valid()
    requires i < top + img.Height() + bottom && j < left + img.width + right
    requires x == i - top && y == j - left
    ensures Pad(img, zero, top, bottom, left, right).px[i][j] == PixelOr(img, zero, x, y)
  {
    PadRowsAt(img, zero, top, left, right, top + img.Height() + bottom, i);
    PadRowAt(img, zero, top, left, right, i, j, x, y);
  }

  /** An image of the given shape holding `zero` everywhere (`np.zeros`). */
  function Zeros<P>(h: nat, w: nat, zero: P): (r: Image<P>)
    ensures r.HasShape(h, w)
    ensures forall i, j :: 0 <= i < h && 0 <= j < w ==> r.px[i][j] == zero
  {
    Image(w, Fill(h, Fill(w, zero)))
  }

  /** `f` applied to every element of `row`. */
  function MapRow<P, Q>(row: seq<P>, f: P -> Q): (r: seq<Q>)
    ensures |r| == |row|
    ensures forall j :: 0 <= j < |row| ==> r[j] == f(row[j])
  {
    if |row| == 0 then [] else MapRow(row[..|row| - 1], f) + [f(row[|row| - 1])]
  }

  /** `f` applied to every element of every row. */
  function MapRows<P, Q>(rows: seq<seq<P>>, f: P -> Q): (r: seq<seq<Q>>)
    ensures |r| == |rows|
    ensures forall i :: 0 <= i < |rows| ==> r[i] == MapRow(rows[i], f)
  {
    if |rows| == 0 then [] else MapRows(rows[..|rows| - 1], f) + [MapRow(rows[|rows| - 1], f)]
  }

  /** The pixelwise image of `img` under `f` (an elementwise dtype cast). */
  function MapPixels<P, Q>(img: Image<P>, f: P -> Q): (r: Image<Q>)
    requires img.Valid()
    ensures r.HasShape(img.Height(), img.width)
    ensures forall i, j {:trigger r.px[i][j]} :: 0 <= i < img.Height() && 0 <= j < img.width ==> r.px[i][j] == f(img.px[i][j])
  {
    Image(img.width, MapRows(img.px, f))
  }

  /** numpy broadcasts a right-hand side into a slice of shape (h, w) when each of its
      dimensions equals the target's or is 1. */
  predicate Broadcastable<P>(t: Image<P>, h: nat, w: nat) {
    (t.Height() == h || t.Height() == 1) && (t.width == w || t.width == 1)
  }

  /** A row of width `w` as it is, or a row of width 1 repeated `w` times. */
  function WidenRow<P>(row: seq<P>, w: nat): (r: seq<P>)
    requires |row| == w || |row| == 1
    ensures |r| == w
    ensures forall j :: 0 <= j < w ==> r[j] == row[if |row| == w then j else 0]
  {
    if |row| == w then row else Fill(w, row[0])
  }

  /** Every row of `rows` widened to `w`. */
  function WidenRows<P>(rows: seq<seq<P>>, w: nat): (r: seq<seq<P>>)
    requires forall i :: 0 <= i < |rows| ==> |rows[i]| == w || |rows[i]| == 1
    ensures |r| == |rows|
    ensures forall i :: 0 <= i < |rows| ==> r[i] == WidenRow(rows[i], w)
  {
    if |rows| == 0 then [] else WidenRows(rows[..|rows| - 1], w) + [WidenRow(rows[|rows| - 1], w)]
  }

  /** The (h, w) array `t` broadcasts to: a dimension of size 1 is repeated. */
  function Broadcast<P>(t: Image<P>, h: nat, w: nat): (r: Image<P>)
    requires t.Valid() && Broadcastable(t, h, w)
    ensures r.HasShape(h, w)
    ensures forall i, j {:trigger r.px[i][j]} :: 0 <= i < h && 0 <= j < w ==>
      r.px[i][j] == t.px[if t.Height() == h then i else 0][if t.width == w then j else 0]
    ensures t.HasShape(h, w) ==> r == t
  {
    var r := Image(w, if t.Height() == h then WidenRows(t.px, w) else Fill(h, WidenRow(t.px[0], w)));
    if t.HasShape(h, w) then Extensionality(r, t, h, w); r else r
  }

  /** Pixel (r, c) of the broadcast mapped image is the mapped pixel (r, c) of the
      broadcast image. */
  lemma BroadcastMapPixel<P, Q>(t: Image<P>, m: Image<Q>, bt: Image<P>, h: nat, w: nat, f: P -> Q, r: nat, c: nat)
    requires t.Valid() && Broadcastable(t, h, w) && r < h && c < w
    requires m == MapPixels(t, f) && bt == Broadcast(t, h, w)
    ensures Broadcast(m, h, w).px[r][c] == f(bt.px[r][c])
  {
    var r' := if t.Height() == h then r else 0;
    var c' := if t.width == w then c else 0;
    assert bt.px[r][c] == t.px[r'][c'];
    assert m.px[r'][c'] == f(t.px[r'][c']);
  }

  /** Mapping every pixel commutes with broadcasting. */
  lemma BroadcastMap<P, Q>(t: Image<P>, h: nat, w: nat, f: P -> Q)
    requires t.Valid() && Broadcastable(t, h, w)
    ensures Broadcast(MapPixels(t, f), h, w) == MapPixels(Broadcast(t, h, w), f)
  {
    var m := MapPixels(t, f);
    var a := Broadcast(m, h, w);
    var bt := Broadcast(t, h, w);
    var b := MapPixels(bt, f);
    forall r, c | 0 <= r < h && 0 <= c < w
      ensures a.px[r][c] == b.px[r][c]
    {
      BroadcastMapPixel(t, m, bt, h, w, f, r, c);
    }
    Extensionality(a, b, h, w);
  }

  /** numpy's slice assignment `canvas[r1:r2, c1:c2] = t` for a rectangle inside the
      canvas and a right-hand side of exactly the rectangle's shape. */
  function Assign<P>(canvas: Image<P>, r1: nat, r2: nat, c1: nat, c2: nat, t: Image<P>): (r: Image<P>)
    requires canvas.Valid() && r1 <= r2 <= canvas.Height() && c1 <= c2 <= canvas.width
    requires t.HasShape(r2 - r1, c2 - c1)
    ensures r.HasShape(canvas.Height(), canvas.width)
    ensures forall i, j {:trigger r.px[i][j]} :: r1 <= i < r2 && c1 <= j < c2 ==> r.px[i][j] == t.px[i - r1][j - c1]
    ensures forall i, j {:trigger r.px[i][j]} ::
      0 <= i < canvas.Height() && 0 <= j < canvas.width && !(r1 <= i < r2 && c1 <= j < c2)
      ==> r.px[i][j] == canvas.px[i][j]
  {
    var rows := AssignRows(canvas, r1, c1, c2, t, r2 - r1);
    var r := Image(canvas.width, rows);
    assert forall i, j {:trigger r.px[i][j]} :: 0 <= i < canvas.Height() && 0 <= j < canvas.width ==>
      r.px[i][j] == if r1 <= i < r2 && c1 <= j < c2 then t.px[i - r1][j - c1] else canvas.px[i][j] by {
      forall i, j | 0 <= i < canvas.Height() && 0 <= j < canvas.width
        ensures r.px[i][j] == if r1 <= i < r2 && c1 <= j < c2 then t.px[i - r1][j - c1] else canvas.px[i][j]
      {
        if r1 <= i < r2 {
          SplicedAt(canvas.px[i], c1, c2, t.px[i - r1], j);
        }
      }
    }
    r
  }

  /** Element `j` of `row` with columns `[c1, c2)` replaced by `mid`. */
  lemma SplicedAt<P>(row: seq<P>, c1: nat, c2: nat, mid: seq<P>, j: nat)
    requires c1 <= c2 <= |row| && |mid| == c2 - c1 && j < |row|
    ensures |row[..c1] + mid + row[c2..]| == |row|
    ensures (row[..c1] + mid + row[c2..])[j] == if c1 <= j < c2 then mid[j - c1] else row[j]
  {
    var left := row[..c1] + mid;
    if j < c2 {
      assert (left + row[c2..])[j] == left[j];
    } else {
      assert (left + row[c2..])[j] == row[c2..][j - c2];
    }
  }

  /** The rows of `canvas` with the first `n` rows of `t` written into columns `[c1, c2)`
      of rows `r1, r1 + 1, ...`, one row after the other. */
  function AssignRows<P>(canvas: Image<P>, r1: nat, c1: nat, c2: nat, t: Image<P>, n: nat): (rows: seq<seq<P>>)
    requires canvas.Valid() && r1 + n <= canvas.Height() && c1 <= c2 <= canvas.width
    requires t.Valid() && n <= t.Height() && t.width == c2 - c1
    ensures |rows| == canvas.Height()
    ensures forall i :: 0 <= i < |rows| ==> |rows[i]| == canvas.width
    ensures forall i :: 0 <= i < |rows| ==>
      rows[i] == if r1 <= i < r1 + n then canvas.px[i][..c1] + t.px[i - r1] + canvas.px[i][c2..] else canvas.px[i]
  {
    if n == 0 then canvas.px
    else
      var done := AssignRows(canvas, r1, c1, c2, t, n - 1);
      var i := r1 + n - 1;
      done[i := canvas.px[i][..c1] + t.px[i - r1] + canvas.px[i][c2..]]
  }

  /** After `canvas[r1:r2, c1:c2] = t` the rectangle holds `t`. */
  lemma AssignInside<P>(canvas: Image<P>, r1: nat, c1: nat, h: nat, w: nat, t: Image<P>)
    requires canvas.Valid() && r1 + h <= canvas.Height() && c1 + w <= canvas.width
    requires t.HasShape(h, w)
    ensures Sub(Assign(canvas, r1, r1 + h, c1, c1 + w, t), r1, c1, h, w) == t
  {
    var a := Assign(canvas, r1, r1 + h, c1, c1 + w, t);
    forall r, c | 0 <= r < h && 0 <= c < w
      ensures Sub(a, r1, c1, h, w).px[r][c] == t.px[r][c]
    {
      SubPixel(a, r1, c1, h, w, r, c);
    }
    Extensionality(Sub(a, r1, c1, h, w), t, h, w);
  }

  /** `canvas[r1:r2, c1:c2] = t` leaves every rectangle that misses the slice unchanged. */
  lemma AssignOutside<P>(canvas: Image<P>, r1: nat, r2: nat, c1: nat, c2: nat, t: Image<P>, x: nat, y: nat, h: nat, w: nat)
    requires canvas.Valid() && r1 <= r2 <= canvas.Height() && c1 <= c2 <= canvas.width
    requires t.HasShape(r2 - r1, c2 - c1)
    requires x + h <= canvas.Height() && y + w <= canvas.width
    requires x + h <= r1 || r2 <= x || y + w <= c1 || c2 <= y
    ensures Sub(Assign(canvas, r1, r2, c1, c2, t), x, y, h, w) == Sub(canvas, x, y, h, w)
  {
    var a := Assign(canvas, r1, r2, c1, c2, t);
    forall r, c | 0 <= r < h && 0 <= c < w
      ensures Sub(a, x, y, h, w).px[r][c] == Sub(canvas, x, y, h, w).px[r][c]
    {
      SubPixel(a, x, y, h, w, r, c);
      SubPixel(canvas, x, y, h, w, r, c);
    }
    Extensionality(Sub(a, x, y, h, w), Sub(canvas, x, y, h, w), h, w);
  }

  /** The concatenation of a sequence of sequences, in order. */
  function Flatten<T>(ss: seq<seq<T>>): seq<T> {
    if |ss| == 0 then [] else ss[0] + Flatten(ss[1..])
  }

  /** Concatenating `n` pieces of length `len` gives `n * len` elements. */
  lemma {:induction false} FlattenLength<T>(ss: seq<seq<T>>, len: nat)
    requires forall a :: 0 <= a < |ss| ==> |ss[a]| == len
    ensures |Flatten(ss)| == Mul(|ss|, len)
  {
    if |ss| > 0 {
      FlattenLength(ss[1..], len);
    }
  }

  /** Element `b` of piece `a` sits at position `a * len + b` of the concatenation. */
  lemma {:induction false} FlattenAt<T>(ss: seq<seq<T>>, len: nat, a: nat, b: nat)
    requires forall a :: 0 <= a < |ss| ==> |ss[a]| == len
    requires a < |ss| && b < len
    ensures Mul(a, len) + b < |Flatten(ss)|
    ensures Flatten(ss)[Mul(a, len) + b] == ss[a][b]
  {
    FlattenLength(ss, len);
    BlockFits(a, |ss|, len);
    if a > 0 {
      FlattenAt(ss[1..], len, a - 1, b);
    }
  }

  /** Every element of the concatenation comes from one of the pieces. */
  lemma {:induction false} FlattenMembers<T>(ss: seq<seq<T>>, x: T)
    requires x in Flatten(ss)
    ensures exists a :: 0 <= a < |ss| && x in ss[a]
  {
    if x !in ss[0] {
      FlattenMembers(ss[1..], x);
      var a :| 0 <= a < |ss[1..]| && x in ss[1..][a];
      assert x in ss[a + 1];
    }
  }
}

=== FILE: imgtiler.dfy ===
/** The `ImgTiler` package's classes on `uint8` images: `SplitImage` converts its input
    with `convert_to_uint8` before splitting and every tile with `convert_from_uint8`
    after; `CombineTiles` converts every tile with `convert_to_uint8`, combines them on a
    canvas of the first tile's dtype, and converts the canvas with `convert_from_uint8`.
    For an unsigned dtype the first conversion is a cast to `uint8`; for `uint8` the second
    is one as well. The other dtypes reach floating-point branches and are not modelled. */
module ImgTiler {
  import opened Images
  import opened GridArith
  import opened Tiling
  import opened Splitter
  import opened Combiner
  import opened RoundTrip
  import opened Uint8
  import opened Uint8Split

  /** `convert_to_uint8` for an unsigned integer dtype (`uint8`, `uint16`, `uint32`): a
      plain cast, with no rescaling of the value range. */
  function ConvertToUint8(img: Image<Pixel>): (u: Image<Pixel>)
    requires img.Valid()
    ensures u.HasShape(img.Height(), img.width) && IsUint8(u)
    ensures forall r, c, ch :: 0 <= r < img.Height() && 0 <= c < img.width && 0 <= ch < |img.px[r][c]| ==>
      |u.px[r][c]| == |img.px[r][c]| && u.px[r][c][ch] % 256 == img.px[r][c][ch] % 256
  {
    ToUint8(img)
  }

  /** `convert_from_uint8` with dtype `uint8`: again a cast to `uint8`. */
  function ConvertFromUint8(img: Image<Pixel>): (u: Image<Pixel>)
    requires img.Valid()
    ensures u.HasShape(img.Height(), img.width) && IsUint8(u)
    ensures IsUint8(img) ==> u == img
  {
    assert IsUint8(img) ==> ToUint8(img) == img by {
      if IsUint8(img) {
        ToUint8Identity(img);
      }
    }
    ToUint8(img)
  }

  /** `SplitImage(image, grid, overlap).split_image(show_rect=False, show_tiles=False)`
      for an image of `channels` channels whose dtype is `uint8`. `what_is` then reports
      `uint8`, so `convert_to_uint8` and `convert_from_uint8` are both casts of bytes, and
      the package split is the plain one. */
  function SplitUint8Image(img: Image<Pixel>, channels: nat, rows: nat, cols: nat, overlap: int): (r: Result<seq<Image<Pixel>>>)
    requires img.Valid() && IsUint8(img)
    ensures r == Split(img, ZeroPixel(channels), rows, cols, overlap)
    ensures r.Failure? <==> rows == 0 || cols == 0
    ensures r.Failure? ==> r.error == DivisionByZero
    ensures r.Success? ==> |r.value| == Mul(rows, cols) && AllValid(r.value) && AllUint8(r.value)
  {
    var u := ConvertToUint8(img);
    ToUint8Identity(img);
    match Split(u, ZeroPixel(channels), rows, cols, overlap)
    case Failure(e) => Failure(e)
    case Success(ts) =>
      SplitUint8(img, ZeroPixel(channels), rows, cols, overlap);
      ToUint8AllIdentity(ts);
      Success(ToUint8All(ts))
  }

  /** `CombineTiles(tiles, grid, overlap).combine_tiles(show_image=False)` when the first
      tile's dtype is `uint8`: `what_is(tiles[0])` then makes the canvas `uint8`, every tile
      is cast to `uint8` on the way in, and the final `convert_from_uint8` is a cast that
      changes nothing, because the canvas holds only pixels of cast tiles. An empty list
      fails on `tiles[0]`. */
  function CombineUint8Tiles(tiles: seq<Image<Pixel>>, rows: nat, cols: nat, overlap: int): (r: Result<Image<Pixel>>)
    requires AllValid(tiles)
    requires |tiles| > 0 ==> IsUint8(tiles[0])
    ensures r == Combine(ToUint8All(tiles), rows, cols, overlap)
    ensures AllUint8(tiles) ==> r == Combine(tiles, rows, cols, overlap)
    ensures r.Success? <==> Combine(tiles, rows, cols, overlap).Success?
    ensures r.Failure? ==> r.error == Combine(tiles, rows, cols, overlap).error
    ensures r.Success? ==> r.value.Valid() && IsUint8(r.value)
  {
    var us := ToUint8All(tiles);
    CombineOutcomeByShape(us, tiles, rows, cols, overlap);
    assert AllUint8(tiles) ==> us == tiles by {
      if AllUint8(tiles) {
        ToUint8AllIdentity(tiles);
      }
    }
    match Combine(us, rows, cols, overlap)
    case Failure(e) => Failure(e)
    case Success(canvas) =>
      CombineUint8(us, rows, cols, overlap);
      assert ConvertFromUint8(canvas) == canvas;
      Success(ConvertFromUint8(canvas))
  }

  /** For a `uint8` image, combining the tiles of the package split gives back the
      grid-padded image: the conversions inside the two classes change nothing. */
  lemma ImgTilerRoundTrip(img: Image<Pixel>, channels: nat, rows: nat, cols: nat, overlap: int)
    requires img.Valid() && IsUint8(img) && rows > 0 && cols > 0
    ensures SplitUint8Image(img, channels, rows, cols, overlap).Success?
    ensures CombineUint8Tiles(SplitUint8Image(img, channels, rows, cols, overlap).value, rows, cols, overlap)
         == Success(GridPad(img, ZeroPixel(channels), rows, cols))
  {
    var zero := ZeroPixel(channels);
    SplitUint8(img, zero, rows, cols, overlap);
    CombineSplit(img, zero, rows, cols, overlap);
  }

  /** Cropping the combined tiles to the original height and width gives the `uint8`
      image back. */
  lemma ImgTilerCropRoundTrip(img: Image<Pixel>, channels: nat, rows: nat, cols: nat, overlap: int)
    requires img.Valid() && IsUint8(img) && rows > 0 && cols > 0
    ensures SplitUint8Image(img, channels, rows, cols, overlap).Success?
    ensures CombineUint8Tiles(SplitUint8Image(img, channels, rows, cols, overlap).value, rows, cols, overlap).Success?
    ensures Crop(CombineUint8Tiles(SplitUint8Image(img, channels, rows, cols, overlap).value, rows, cols, overlap).value,
                 0, img.Height(), 0, img.width) == img
  {
    ImgTilerRoundTrip(img, channels, rows, cols, overlap);
    GridPadCropsBack(img, ZeroPixel(channels), rows, cols);
  }

  /** The script `test.py` run on the package classes with a `uint8` image, without
      previews: a zero grid dimension stops it at the split; otherwise it ends with the
      grid-padded image, which is the image itself when the grid divides it, and the image
      again once cropped to its height and width. */
  function SplitThenCombineUint8(img: Image<Pixel>, channels: nat, rows: nat, cols: nat, overlap: int): (r: Result<Image<Pixel>>)
    requires img.Valid() && IsUint8(img)
    ensures rows == 0 || cols == 0 ==> r == Failure(DivisionByZero)
    ensures rows > 0 && cols > 0 ==> r == Success(GridPad(img, ZeroPixel(channels), rows, cols))
    ensures rows > 0 && cols > 0 ==> r.Success? && Crop(r.value, 0, img.Height(), 0, img.width) == img
    ensures rows > 0 && cols > 0 && img.Height() % rows == 0 && img.width % cols == 0 ==> r == Success(img)
  {
    match SplitUint8Image(img, channels, rows, cols, overlap)
    case Failure(e) => Failure(e)
    case Success(tiles) =>
      ImgTilerRoundTrip(img, channels, rows, cols, overlap);
      ImgTilerCropRoundTrip(img, channels, rows, cols, overlap);
      assert img.Height() % rows == 0 && img.width % cols == 0 ==> GridPad(img, ZeroPixel(channels), rows, cols) == img by {
        if img.Height() % rows == 0 && img.width % cols == 0 {
          GridPadExact(img, ZeroPixel(channels), rows, cols);
        }
      }
      CombineUint8Tiles(tiles, rows, cols, overlap)
  }
}

=== FILE: roundtrip.dfy ===
/** Splitting and combining with the same grid and overlap are inverse: combining the
    tiles `SplitImage` produces gives back the grid-padded image, and cropping that to the
    original height and width gives back the image itself. */
module RoundTrip {
  import opened Images
  import opened GridArith
  import opened Tiling
  import opened Splitter
  import opened Combiner

  /** Pixel (r, c) of a depadded window is pixel (r, c) of the matching block of the
      grid-padded image. */
  lemma DepadWindowPixel<P>(img: Image<P>, zero: P, rows: nat, cols: nat, overlap: int, i: nat, j: nat, r: nat, c: nat)
    requires img.Valid() && i < rows && j < cols
    requires r < TileSize(img.Height(), rows) && c < TileSize(img.width, cols)
    ensures Depad(Window(img, zero, rows, cols, overlap, i, j), ClampOverlap(overlap)).px[r][c]
         == Block(GridPad(img, zero, rows, cols), TileSize(img.Height(), rows), TileSize(img.width, cols), rows, cols, i, j).px[r][c]
  {
    var th := TileSize(img.Height(), rows);
    var tw := TileSize(img.width, cols);
    WindowCorePixel(img, zero, rows, cols, overlap, i, j, r, c);
    DepadBlockPixel(Window(img, zero, rows, cols, overlap, i, j), GridPad(img, zero, rows, cols),
                    ClampOverlap(overlap), th, tw, rows, cols, i, j, r, c);
  }

  /** A window whose core pixel (r, c) is pixel (r, c) of block (i, j) of `g` has that
      pixel at (r, c) once depadded. */
  lemma DepadBlockPixel<P>(w: Image<P>, g: Image<P>, ov: nat, th: nat, tw: nat, rows: nat, cols: nat, i: nat, j: nat, r: nat, c: nat)
    requires ov >= 1 && w.HasShape(th + 2 * ov, tw + 2 * ov) && g.HasShape(Mul(rows, th), Mul(cols, tw))
    requires i < rows && j < cols && r < th && c < tw
    requires Mul(i, th) + r < g.Height() && Mul(j, tw) + c < g.width
    requires w.px[ov + r][ov + c] == g.px[Mul(i, th) + r][Mul(j, tw) + c]
    ensures Depad(w, ov).px[r][c] == Block(g, th, tw, rows, cols, i, j).px[r][c]
  {
    DepadPixel(w, ov, r, c);
    BlockPixel(g, th, tw, rows, cols, i, j, r, c);
  }

  /** Stripping the border from window (i, j) leaves block (i, j) of the grid-padded
      image: the tiles' cores partition it. */
  lemma DepadWindow<P>(img: Image<P>, zero: P, rows: nat, cols: nat, overlap: int, i: nat, j: nat)
    requires img.Valid() && i < rows && j < cols
    ensures GridPad(img, zero, rows, cols).HasShape(Mul(rows, TileSize(img.Height(), rows)), Mul(cols, TileSize(img.width, cols)))
    ensures Depad(Window(img, zero, rows, cols, overlap, i, j), ClampOverlap(overlap))
         == Block(GridPad(img, zero, rows, cols), TileSize(img.Height(), rows), TileSize(img.width, cols), rows, cols, i, j)
  {
    var th := TileSize(img.Height(), rows);
    var tw := TileSize(img.width, cols);
    var d := Depad(Window(img, zero, rows, cols, overlap, i, j), ClampOverlap(overlap));
    var b := Block(GridPad(img, zero, rows, cols), th, tw, rows, cols, i, j);
    forall r, c | 0 <= r < th && 0 <= c < tw
      ensures d.px[r][c] == b.px[r][c]
    {
      DepadWindowPixel(img, zero, rows, cols, overlap, i, j, r, c);
    }
    Extensionality(d, b, th, tw);
  }

  /** Tile `k` of a split, depadded, has the cell size of the grid, so it fits its block
      without broadcasting. */
  lemma SplitCore<P>(img: Image<P>, zero: P, rows: nat, cols: nat, overlap: int, k: nat)
    requires img.Valid() && rows > 0 && cols > 0 && k < Mul(rows, cols)
    ensures
      var ts := Split(img, zero, rows, cols, overlap).value;
      var ov := ClampOverlap(overlap);
      && |ts| == Mul(rows, cols)
      && AllValid(ts)
      && Depad(ts[k], ov).HasShape(TileSize(img.Height(), rows), TileSize(img.width, cols))
  {
  }

  /** The first depadded tile fixes the block size `combine_tiles` uses: the grid's cell
      size. Every tile fits, and fitting leaves it unchanged. */
  lemma SplitCores<P>(img: Image<P>, zero: P, rows: nat, cols: nat, overlap: int)
    requires img.Valid() && rows > 0 && cols > 0
    ensures
      var ts := Split(img, zero, rows, cols, overlap).value;
      var ov := ClampOverlap(overlap);
      && |ts| == Mul(rows, cols) > 0
      && AllValid(ts)
      && CoreShape(ts, ov) == (TileSize(img.Height(), rows), TileSize(img.width, cols))
      && forall k :: 0 <= k < |ts| ==> Fits(ts, ov, k) && Fitted(ts, ov, k) == Depad(ts[k], ov)
  {
    var ts := Split(img, zero, rows, cols, overlap).value;
    var ov := ClampOverlap(overlap);
    MulZero(rows, cols);
    SplitCore(img, zero, rows, cols, overlap, 0);
    forall k | 0 <= k < |ts|
      ensures Fits(ts, ov, k) && Fitted(ts, ov, k) == Depad(ts[k], ov)
    {
      SplitCore(img, zero, rows, cols, overlap, k);
    }
  }

  /** Block (i, j) of the combined split is block (i, j) of the grid-padded image. */
  lemma RoundTripBlock<P>(img: Image<P>, zero: P, rows: nat, cols: nat, overlap: int, i: nat, j: nat)
    requires img.Valid() && i < rows && j < cols
    ensures Split(img, zero, rows, cols, overlap).Success?
    ensures AllValid(Split(img, zero, rows, cols, overlap).value)
    ensures Combine(Split(img, zero, rows, cols, overlap).value, rows, cols, overlap).Success?
    ensures Combine(Split(img, zero, rows, cols, overlap).value, rows, cols, overlap).value
              .HasShape(Mul(rows, TileSize(img.Height(), rows)), Mul(cols, TileSize(img.width, cols)))
    ensures GridPad(img, zero, rows, cols).HasShape(Mul(rows, TileSize(img.Height(), rows)), Mul(cols, TileSize(img.width, cols)))
    ensures Block(Combine(Split(img, zero, rows, cols, overlap).value, rows, cols, overlap).value,
                  TileSize(img.Height(), rows), TileSize(img.width, cols), rows, cols, i, j)
         == Block(GridPad(img, zero, rows, cols), TileSize(img.Height(), rows), TileSize(img.width, cols), rows, cols, i, j)
  {
    var ts := Split(img, zero, rows, cols, overlap).value;
    var ov := ClampOverlap(overlap);
    SplitCores(img, zero, rows, cols, overlap);
    CombineSucceeds(ts, rows, cols, overlap);
    CombineBlock(ts, rows, cols, overlap, i, j);
    SplitOrder(img, zero, rows, cols, overlap, i, j);
    DepadWindow(img, zero, rows, cols, overlap, i, j);
  }

  /** `combine_tiles(split_image(img))` with the same grid and overlap is the image padded
      at the bottom and right to a multiple of the grid. */
  lemma CombineSplit<P>(img: Image<P>, zero: P, rows: nat, cols: nat, overlap: int)
    requires img.Valid() && rows > 0 && cols > 0
    ensures Split(img, zero, rows, cols, overlap).Success?
    ensures AllValid(Split(img, zero, rows, cols, overlap).value)
    ensures Combine(Split(img, zero, rows, cols, overlap).value, rows, cols, overlap) == Success(GridPad(img, zero, rows, cols))
  {
    var th := TileSize(img.Height(), rows);
    var tw := TileSize(img.width, cols);
    var ts := Split(img, zero, rows, cols, overlap).value;
    RoundTripBlock(img, zero, rows, cols, overlap, 0, 0);
    var a := Combine(ts, rows, cols, overlap).value;
    var g := GridPad(img, zero, rows, cols);
    forall i, j | 0 <= i < rows && 0 <= j < cols
      ensures Block(a, th, tw, rows, cols, i, j) == Block(g, th, tw, rows, cols, i, j)
    {
      RoundTripBlock(img, zero, rows, cols, overlap, i, j);
    }
    BlocksDetermine(a, g, th, tw, rows, cols);
  }

  /** Cropping the combined split to the original height and width gives the image back,
      for every grid and every overlap. */
  lemma SplitCombineCrop<P>(img: Image<P>, zero: P, rows: nat, cols: nat, overlap: int)
    requires img.Valid() && rows > 0 && cols > 0
    ensures Split(img, zero, rows, cols, overlap).Success?
    ensures AllValid(Split(img, zero, rows, cols, overlap).value)
    ensures Combine(Split(img, zero, rows, cols, overlap).value, rows, cols, overlap).Success?
    ensures Crop(Combine(Split(img, zero, rows, cols, overlap).value, rows, cols, overlap).value, 0, img.Height(), 0, img.width) == img
  {
    CombineSplit(img, zero, rows, cols, overlap);
    GridPadCropsBack(img, zero, rows, cols);
  }

  /** When the image already divides evenly into the grid, the round trip is exact. */
  lemma SplitCombineExact<P>(img: Image<P>, zero: P, rows: nat, cols: nat, overlap: int)
    requires img.Valid() && rows > 0 && cols > 0
    requires img.Height() % rows == 0 && img.width % cols == 0
    ensures Split(img, zero, rows, cols, overlap).Success?
    ensures AllValid(Split(img, zero, rows, cols, overlap).value)
    ensures Combine(Split(img, zero, rows, cols, overlap).value, rows, cols, overlap) == Success(img)
  {
    CombineSplit(img, zero, rows, cols, overlap);
    GridPadExact(img, zero, rows, cols);
  }

  /** An image whose height and width are already multiples of the grid is not padded. */
  lemma GridPadExact<P>(img: Image<P>, zero: P, rows: nat, cols: nat)
    requires img.Valid() && rows > 0 && cols > 0
    requires img.Height() % rows == 0 && img.width % cols == 0
    ensures GridPad(img, zero, rows, cols) == img
  {
    PadAmountIsFormula(img.Height(), rows);
    PadAmountIsFormula(img.width, cols);
    forall r, c | 0 <= r < img.Height() && 0 <= c < img.width
      ensures GridPad(img, zero, rows, cols).px[r][c] == img.px[r][c]
    {
      GridPadPixel(img, zero, rows, cols, r, c);
    }
    Extensionality(GridPad(img, zero, rows, cols), img, img.Height(), img.width);
  }

  /** The script `test.py` without its previews: `split_image(show_rect=False)` and then
      `combine_tiles` on the tiles with the same grid and overlap. A zero grid dimension
      stops it at the split; otherwise it ends with the grid-padded image, which is the
      image itself when the grid divides it, and which cropped to the original height and
      width is the image again. */
  function SplitThenCombine<P>(img: Image<P>, zero: P, rows: nat, cols: nat, overlap: int): (r: Result<Image<P>>)
    requires img.Valid()
    ensures rows == 0 || cols == 0 ==> r == Failure(DivisionByZero)
    ensures rows > 0 && cols > 0 ==> r == Success(GridPad(img, zero, rows, cols))
    ensures rows > 0 && cols > 0 ==> r.Success? && Crop(r.value, 0, img.Height(), 0, img.width) == img
    ensures rows > 0 && cols > 0 && img.Height() % rows == 0 && img.width % cols == 0 ==> r == Success(img)
  {
    match Split(img, zero, rows, cols, overlap)
    case Failure(e) => Failure(e)
    case Success(tiles) =>
      CombineSplit(img, zero, rows, cols, overlap);
      GridPadCropsBack(img, zero, rows, cols);
      assert img.Height() % rows == 0 && img.width % cols == 0 ==> GridPad(img, zero, rows, cols) == img by {
        if img.Height() % rows == 0 && img.width % cols == 0 {
          GridPadExact(img, zero, rows, cols);
        }
      }
      Combine(tiles, rows, cols, overlap)
  }
}

=== FILE: split.dfy ===
/** `SplitImage` (ImgTiler/ImageTiler.py, repeated in dist/ImageTiler.py) over images with
    an arbitrary pixel type `P` whose zero value is passed as `zero`.

    Splitting pads the image at the bottom and right to a multiple of the grid, adds a
    zero border of `ov = max(overlap, 1)` on every side, and cuts `rows * cols` windows of
    `(th + 2ov) x (tw + 2ov)` pixels in row-major order, where `th x tw` is the size of one
    grid cell of the padded image. */
module Splitter {
  import opened Images
  import opened GridArith
  import opened Tiling

  // ---------------------------------------------------------------------------
  // Sizes

  /** `(g - n % g) % g`: rows (or columns) appended so that `n` becomes a multiple of `g`
      (PadAmountIsFormula). */
  function PadAmount(n: nat, g: nat): (p: nat)
    requires g > 0
    ensures p < g
    ensures Rem(n + p, g) == 0
  {
    QuotRem(n, g);
    var m := Rem(n, g);
    if m == 0 then 0
    else
      assert n + (g - m) == Mul(Quot(n, g) + 1, g) + 0 by { MulSucc(Quot(n, g), g); }
      QuotRemUnique(Quot(n, g) + 1, 0, g);
      g - m
  }

  /** The padding is the source's `(g - n % g) % g`; it is zero exactly when `g` divides
      `n`, and the padded size is a multiple of `g`. */
  lemma PadAmountIsFormula(n: nat, g: nat)
    requires g > 0
    ensures PadAmount(n, g) == (g - n % g) % g
    ensures PadAmount(n, g) == 0 <==> n % g == 0
    ensures (n + PadAmount(n, g)) % g == 0
  {
    QuotRemIsDivMod(n, g);
    QuotRemIsDivMod(n + PadAmount(n, g), g);
    var m := n % g;
    if m == 0 {
      DivModUnique(g, g, 1, 0);
    } else {
      DivModUnique(g - m, g, 0, g - m);
    }
  }

  /** No multiple of `g` lies between `n` and `n + PadAmount(n, g)`: the padded size is
      the smallest multiple of `g` that is at least `n`. */
  lemma PadAmountMinimal(n: nat, g: nat, m: nat)
    requires g > 0 && n <= m && m % g == 0
    ensures n + PadAmount(n, g) <= m
  {
    QuotRemIsDivMod(m, g);
    QuotRem(m, g);
    QuotRem(n, g);
    var q, k := Quot(n, g), Quot(m, g);
    if Rem(n, g) != 0 {
      if k <= q {
        MulMonotone(k, q, g);
        assert false;
      }
      MulMonotone(q + 1, k, g);
      MulSucc(q, g);
    }
  }

  /** `a * g <= b * g` with `g > 0` gives `a <= b`. */
  lemma MulCancel(a: nat, b: nat, g: nat)
    requires g > 0 && Mul(a, g) <= Mul(b, g)
    ensures a <= b
  {
    if a > b {
      MulMonotone(b + 1, a, g);
      MulSucc(b, g);
      assert false;
    }
  }

  /** `n` grown to the next multiple of `g`: the height (or width) after `check_divisible`. */
  function PaddedSize(n: nat, g: nat): (m: nat)
    requires g > 0
    ensures Rem(m, g) == 0 && n <= m < n + g
  {
    n + PadAmount(n, g)
  }

  /** Height (or width) of one tile's core: the padded size divided by the grid count
      (`height // grid[0]`), which is `n / g` rounded up. */
  function TileSize(n: nat, g: nat): (t: nat)
    requires g > 0
    ensures Mul(g, t) == PaddedSize(n, g)
  {
    var m := PaddedSize(n, g);
    QuotRem(m, g);
    MulComm(Quot(m, g), g);
    Quot(m, g)
  }

  /** `TileSize` is the source's floor division of the padded size, and no smaller tile
      size covers `n` with `g` tiles. */
  lemma TileSizeIsQuotient(n: nat, g: nat)
    requires g > 0
    ensures TileSize(n, g) == PaddedSize(n, g) / g
    ensures PaddedSize(n, g) % g == 0
    ensures forall t: nat :: g * t >= n ==> TileSize(n, g) <= t
  {
    QuotRemIsDivMod(PaddedSize(n, g), g);
    PadAmountIsFormula(n, g);
    forall t: nat | g * t >= n
      ensures TileSize(n, g) <= t
    {
      MulIsProduct(t, g);
      DivModUnique(g * t, g, t, 0);
      PadAmountMinimal(n, g, g * t);
      MulComm(g, TileSize(n, g));
      MulCancel(TileSize(n, g), t, g);
    }
  }

  // ---------------------------------------------------------------------------
  // Padding

  /** `check_divisible`: zero rows appended at the bottom and zero columns at the right
      until the height is a multiple of `rows` and the width a multiple of `cols`. Every
      pixel of the original keeps its coordinates. */
  function GridPad<P>(img: Image<P>, zero: P, rows: nat, cols: nat): (g: Image<P>)
    requires img.Valid() && rows > 0 && cols > 0
    ensures g.HasShape(PaddedSize(img.Height(), rows), PaddedSize(img.width, cols))
  {
    Pad(img, zero, 0, PadAmount(img.Height(), rows), 0, PadAmount(img.width, cols))
  }

  /** Pixel (r, c) of the grid-padded image is pixel (r, c) of the original where that
      exists, and zero in the appended rows and columns. */
  lemma GridPadPixel<P>(img: Image<P>, zero: P, rows: nat, cols: nat, r: nat, c: nat)
    requires img.Valid() && rows > 0 && cols > 0
    requires r < PaddedSize(img.Height(), rows) && c < PaddedSize(img.width, cols)
    ensures GridPad(img, zero, rows, cols).px[r][c] == PixelOr(img, zero, r, c)
  {
    PadPixel(img, zero, 0, PadAmount(img.Height(), rows), 0, PadAmount(img.width, cols), r, c, r, c);
  }

  /** Cutting the grid padding off again (`g[:h, :w]`) gives back the original image. */
  lemma GridPadCropsBack<P>(img: Image<P>, zero: P, rows: nat, cols: nat)
    requires img.Valid() && rows > 0 && cols > 0
    ensures Crop(GridPad(img, zero, rows, cols), 0, img.Height(), 0, img.width) == img
  {
    var t := Crop(GridPad(img, zero, rows, cols), 0, img.Height(), 0, img.width);
    forall r, c | 0 <= r < img.Height() && 0 <= c < img.width
      ensures t.px[r][c] == img.px[r][c]
    {
      GridPadCropPixel(img, zero, rows, cols, r, c);
    }
    Extensionality(t, img, img.Height(), img.width);
  }

  lemma GridPadCropPixel<P>(img: Image<P>, zero: P, rows: nat, cols: nat, r: nat, c: nat)
    requires img.Valid() && rows > 0 && cols > 0
    requires r < img.Height() && c < img.width
    ensures Crop(GridPad(img, zero, rows, cols), 0, img.Height(), 0, img.width).HasShape(img.Height(), img.width)
    ensures Crop(GridPad(img, zero, rows, cols), 0, img.Height(), 0, img.width).px[r][c] == img.px[r][c]
  {
    var g := GridPad(img, zero, rows, cols);
    CropPixel(g, 0, img.Height(), 0, img.width, r, c, r, c);
    GridPadPixel(img, zero, rows, cols, r, c);
  }

  /** `pad_image` applied to the grid-padded image: the image `split_image` cuts windows
      from, with a zero border of `ov` on all four sides. */
  function Bordered<P>(img: Image<P>, zero: P, rows: nat, cols: nat, overlap: int): (b: Image<P>)
    requires img.Valid() && rows > 0 && cols > 0
    ensures b.HasShape(PaddedSize(img.Height(), rows) + 2 * ClampOverlap(overlap),
                       PaddedSize(img.width, cols) + 2 * ClampOverlap(overlap))
  {
    var ov := ClampOverlap(overlap);
    Pad(GridPad(img, zero, rows, cols), zero, ov, ov, ov, ov)
  }

  /** Pixel (R, C) of the bordered image is pixel (x, y) = (R - ov, C - ov) of the original. */
  lemma BorderedPixel<P>(img: Image<P>, zero: P, rows: nat, cols: nat, overlap: int, R: nat, C: nat, x: int, y: int)
    requires img.Valid() && rows > 0 && cols > 0
    requires R < PaddedSize(img.Height(), rows) + 2 * ClampOverlap(overlap)
    requires C < PaddedSize(img.width, cols) + 2 * ClampOverlap(overlap)
    requires x == R - ClampOverlap(overlap) && y == C - ClampOverlap(overlap)
    ensures Bordered(img, zero, rows, cols, overlap).px[R][C] == PixelOr(img, zero, x, y)
  {
    var ov := ClampOverlap(overlap);
    var g := GridPad(img, zero, rows, cols);
    PadPixel(g, zero, ov, ov, ov, ov, R, C, x, y);
    if 0 <= x < g.Height() && 0 <= y < g.width {
      GridPadPixel(img, zero, rows, cols, x, y);
    }
  }

  // ---------------------------------------------------------------------------
  // Splitting

  /** `extract_tile`: rows `[i*th, (i+1)*th + 2ov)` and columns `[j*tw, (j+1)*tw + 2ov)`
      of the bordered image `b`, for a window that lies inside it. */
  function ExtractTile<P>(b: Image<P>, th: nat, tw: nat, ov: nat, i: nat, j: nat): (t: Image<P>)
    requires b.Valid() && Mul(i, th) + th + 2 * ov <= b.Height() && Mul(j, tw) + tw + 2 * ov <= b.width
    ensures t.HasShape(th + 2 * ov, tw + 2 * ov)
  {
    Sub(b, Mul(i, th), Mul(j, tw), th + 2 * ov, tw + 2 * ov)
  }

  /** Pixel (r, c) of the window is pixel (R, C) = (i*th + r, j*tw + c) of `b`. */
  lemma ExtractPixel<P>(b: Image<P>, th: nat, tw: nat, ov: nat, i: nat, j: nat, r: nat, c: nat, R: nat, C: nat)
    requires b.Valid() && Mul(i, th) + th + 2 * ov <= b.Height() && Mul(j, tw) + tw + 2 * ov <= b.width
    requires r < th + 2 * ov && c < tw + 2 * ov
    requires R == Mul(i, th) + r && C == Mul(j, tw) + c
    ensures R < b.Height() && C < b.width
    ensures ExtractTile(b, th, tw, ov, i, j).px[r][c] == b.px[R][C]
  {
    SubPixel(b, Mul(i, th), Mul(j, tw), th + 2 * ov, tw + 2 * ov, r, c);
  }

  /** The window is exactly numpy's slice `b[i*th:(i+1)*th + 2ov, j*tw:(j+1)*tw + 2ov]`,
      the products written with `Mul` (MulIsProduct). */
  lemma ExtractTileIsSlice<P>(b: Image<P>, th: nat, tw: nat, ov: nat, i: nat, j: nat)
    requires b.Valid() && Mul(i, th) + th + 2 * ov <= b.Height() && Mul(j, tw) + tw + 2 * ov <= b.width
    ensures ExtractTile(b, th, tw, ov, i, j)
         == Crop(b, Mul(i, th), Mul(i + 1, th) + 2 * ov, Mul(j, tw), Mul(j + 1, tw) + 2 * ov)
  {
    MulSucc(i, th);
    MulSucc(j, tw);
    CropInside(b, Mul(i, th), Mul(i + 1, th) + 2 * ov, Mul(j, tw), Mul(j + 1, tw) + 2 * ov);
  }

  /** Tile (i, j) of `split_image`: `extract_tile` on the bordered image with the grid's
      cell size. */
  function Window<P>(img: Image<P>, zero: P, rows: nat, cols: nat, overlap: int, i: nat, j: nat): (t: Image<P>)
    requires img.Valid() && i < rows && j < cols
    ensures t.HasShape(TileSize(img.Height(), rows) + 2 * ClampOverlap(overlap),
                       TileSize(img.width, cols) + 2 * ClampOverlap(overlap))
  {
    var th := TileSize(img.Height(), rows);
    var tw := TileSize(img.width, cols);
    BlockFits(i, rows, th);
    BlockFits(j, cols, tw);
    ExtractTile(Bordered(img, zero, rows, cols, overlap), th, tw, ClampOverlap(overlap), i, j)
  }

  /** Pixel (r, c) of tile (i, j) is pixel (x, y) = (i*th + r - ov, j*tw + c - ov) of the
      original image, or zero where that lies in the border or the grid padding. */
  lemma WindowPixel<P>(img: Image<P>, zero: P, rows: nat, cols: nat, overlap: int, i: nat, j: nat, r: nat, c: nat, x: int, y: int)
    requires img.Valid() && i < rows && j < cols
    requires r < TileSize(img.Height(), rows) + 2 * ClampOverlap(overlap)
    requires c < TileSize(img.width, cols) + 2 * ClampOverlap(overlap)
    requires x == Mul(i, TileSize(img.Height(), rows)) + r - ClampOverlap(overlap)
    requires y == Mul(j, TileSize(img.width, cols)) + c - ClampOverlap(overlap)
    ensures Window(img, zero, rows, cols, overlap, i, j).px[r][c] == PixelOr(img, zero, x, y)
  {
    var th := TileSize(img.Height(), rows);
    var tw := TileSize(img.width, cols);
    var ov := ClampOverlap(overlap);
    var b := Bordered(img, zero, rows, cols, overlap);
    BlockFits(i, rows, th);
    BlockFits(j, cols, tw);
    var R, C := Mul(i, th) + r, Mul(j, tw) + c;
    BorderedPixel(img, zero, rows, cols, overlap, R, C, x, y);
    ExtractPixel(b, th, tw, ov, i, j, r, c, R, C);
  }

  /** Pixel (ov + r, ov + c) of tile (i, j), inside its border, is pixel
      (i*th + r, j*tw + c) of the grid-padded image. */
  lemma WindowCorePixel<P>(img: Image<P>, zero: P, rows: nat, cols: nat, overlap: int, i: nat, j: nat, r: nat, c: nat)
    requires img.Valid() && i < rows && j < cols
    requires r < TileSize(img.Height(), rows) && c < TileSize(img.width, cols)
    ensures Mul(i, TileSize(img.Height(), rows)) + r < PaddedSize(img.Height(), rows)
    ensures Mul(j, TileSize(img.width, cols)) + c < PaddedSize(img.width, cols)
    ensures Window(img, zero, rows, cols, overlap, i, j).px[ClampOverlap(overlap) + r][ClampOverlap(overlap) + c]
         == GridPad(img, zero, rows, cols).px[Mul(i, TileSize(img.Height(), rows)) + r][Mul(j, TileSize(img.width, cols)) + c]
  {
    var th := TileSize(img.Height(), rows);
    var tw := TileSize(img.width, cols);
    BlockFits(i, rows, th);
    BlockFits(j, cols, tw);
    CoreOfBorderedPixel(GridPad(img, zero, rows, cols), zero, th, tw, ClampOverlap(overlap), i, j, r, c);
  }

  /** In a window cut from an image bordered by `ov`, pixel (ov + r, ov + c) is pixel
      (i*th + r, j*tw + c) of the image before bordering. */
  lemma CoreOfBorderedPixel<P>(g: Image<P>, zero: P, th: nat, tw: nat, ov: nat, i: nat, j: nat, r: nat, c: nat)
    requires g.Valid() && Mul(i, th) + th <= g.Height() && Mul(j, tw) + tw <= g.width
    requires r < th && c < tw
    ensures ExtractTile(Pad(g, zero, ov, ov, ov, ov), th, tw, ov, i, j).px[ov + r][ov + c]
         == g.px[Mul(i, th) + r][Mul(j, tw) + c]
  {
    var b := Pad(g, zero, ov, ov, ov, ov);
    var R, C := Mul(i, th) + (ov + r), Mul(j, tw) + (ov + c);
    var x, y := Mul(i, th) + r, Mul(j, tw) + c;
    ExtractPixel(b, th, tw, ov, i, j, ov + r, ov + c, R, C);
    PadPixel(g, zero, ov, ov, ov, ov, R, C, x, y);
  }

  /** Tile `k` of the list `split_image` builds: the window of grid cell (k / cols, k % cols). */
  function TileAt<P>(img: Image<P>, zero: P, rows: nat, cols: nat, overlap: int, k: nat): (t: Image<P>)
    requires img.Valid() && rows > 0 && cols > 0 && k < Mul(rows, cols)
    ensures t.HasShape(TileSize(img.Height(), rows) + 2 * ClampOverlap(overlap),
                       TileSize(img.width, cols) + 2 * ClampOverlap(overlap))
  {
    RowMajorInverse(k, rows, cols);
    Window(img, zero, rows, cols, overlap, Quot(k, cols), Rem(k, cols))
  }

  /** `split_image` with `show_rect` off: the `rows * cols` windows, all of one shape.
      A zero grid dimension fails in `check_divisible`'s modulo. */
  function Split<P>(img: Image<P>, zero: P, rows: nat, cols: nat, overlap: int): (r: Result<seq<Image<P>>>)
    requires img.Valid()
    ensures r.Failure? <==> rows == 0 || cols == 0
    ensures r.Failure? ==> r.error == DivisionByZero
    ensures r.Success? ==> |r.value| == Mul(rows, cols)
    ensures r.Success? ==> forall k :: 0 <= k < |r.value| ==>
      r.value[k].HasShape(TileSize(img.Height(), rows) + 2 * ClampOverlap(overlap),
                          TileSize(img.width, cols) + 2 * ClampOverlap(overlap))
  {
    if rows == 0 || cols == 0 then Failure(DivisionByZero)
    else Success(seq(Mul(rows, cols), k requires 0 <= k < Mul(rows, cols) => TileAt(img, zero, rows, cols, overlap, k)))
  }

  /** The nested loops append in row-major order: tile `i * cols + j` is window (i, j). */
  lemma SplitOrder<P>(img: Image<P>, zero: P, rows: nat, cols: nat, overlap: int, i: nat, j: nat)
    requires img.Valid() && i < rows && j < cols
    ensures Split(img, zero, rows, cols, overlap).Success?
    ensures Mul(i, cols) + j < |Split(img, zero, rows, cols, overlap).value|
    ensures Split(img, zero, rows, cols, overlap).value[Mul(i, cols) + j] == Window(img, zero, rows, cols, overlap, i, j)
  {
    RowMajor(i, j, rows, cols);
    var k := Mul(i, cols) + j;
    var tiles := Split(img, zero, rows, cols, overlap).value;
    assert tiles[k] == TileAt(img, zero, rows, cols, overlap, k);
  }

  /** `SplitImage(image, grid, overlap).split_image(show_rect=False)` the way the source
      runs it: pad to the grid, add the border, then append `extract_tile(i, j)` for every
      row `i` and, inside it, every column `j`. */
  method SplitImage<P>(img: Image<P>, zero: P, rows: nat, cols: nat, overlap: int) returns (r: Result<seq<Image<P>>>)
    requires img.Valid()
    ensures r == Split(img, zero, rows, cols, overlap)
  {
    if rows == 0 || cols == 0 {
      return Failure(DivisionByZero);
    }
    var ov := ClampOverlap(overlap);
    var th := TileSize(img.Height(), rows);
    var tw := TileSize(img.width, cols);
    var b := Bordered(img, zero, rows, cols, overlap);
    var tiles: seq<Image<P>> := [];
    var i := 0;
    while i < rows
      invariant i <= rows && |tiles| == Mul(i, cols) <= Mul(rows, cols)
      invariant forall k :: 0 <= k < |tiles| ==> tiles[k] == TileAt(img, zero, rows, cols, overlap, k)
    {
      var j := 0;
      while j < cols
        invariant j <= cols && |tiles| == Mul(i, cols) + j <= Mul(rows, cols)
        invariant forall k :: 0 <= k < |tiles| ==> tiles[k] == TileAt(img, zero, rows, cols, overlap, k)
      {
        RowMajor(i, j, rows, cols);
        BlockFits(i, rows, th);
        BlockFits(j, cols, tw);
        var t := ExtractTile(b, th, tw, ov, i, j);
        assert t == TileAt(img, zero, rows, cols, overlap, Mul(i, cols) + j);
        tiles := tiles + [t];
        j := j + 1;
      }
      MulSucc(i, cols);
      i := i + 1;
    }
    assert tiles == Split(img, zero, rows, cols, overlap).value;
    return Success(tiles);
  }

  /** The windows of horizontally adjacent tiles overlap by `2ov` columns: the last `2ov`
      columns of tile (i, j) are the first `2ov` columns of tile (i, j + 1). */
  lemma OverlapContinuityHorizontal<P>(img: Image<P>, zero: P, rows: nat, cols: nat, overlap: int, i: nat, j: nat)
    requires img.Valid() && i < rows && j + 1 < cols
    ensures
      var th := TileSize(img.Height(), rows);
      var tw := TileSize(img.width, cols);
      var ov := ClampOverlap(overlap);
      var left := Window(img, zero, rows, cols, overlap, i, j);
      var right := Window(img, zero, rows, cols, overlap, i, j + 1);
      forall r, c :: 0 <= r < th + 2 * ov && 0 <= c < 2 * ov ==> left.px[r][tw + c] == right.px[r][c]
  {
    var th := TileSize(img.Height(), rows);
    var ov := ClampOverlap(overlap);
    forall r: nat, c: nat {:trigger Window(img, zero, rows, cols, overlap, i, j + 1).px[r][c]} | r < th + 2 * ov && c < 2 * ov {
      OverlapPixelHorizontal(img, zero, rows, cols, overlap, i, j, r, c);
    }
  }

  lemma OverlapPixelHorizontal<P>(img: Image<P>, zero: P, rows: nat, cols: nat, overlap: int, i: nat, j: nat, r: nat, c: nat)
    requires img.Valid() && i < rows && j + 1 < cols
    requires r < TileSize(img.Height(), rows) + 2 * ClampOverlap(overlap) && c < 2 * ClampOverlap(overlap)
    ensures Window(img, zero, rows, cols, overlap, i, j).px[r][TileSize(img.width, cols) + c]
         == Window(img, zero, rows, cols, overlap, i, j + 1).px[r][c]
  {
    var th := TileSize(img.Height(), rows);
    var tw := TileSize(img.width, cols);
    var ov := ClampOverlap(overlap);
    MulSucc(j, tw);
    var x, y := Mul(i, th) + r - ov, Mul(j + 1, tw) + c - ov;
    WindowPixel(img, zero, rows, cols, overlap, i, j, r, tw + c, x, y);
    WindowPixel(img, zero, rows, cols, overlap, i, j + 1, r, c, x, y);
  }

  /** The windows of vertically adjacent tiles overlap by `2ov` rows: the last `2ov` rows
      of tile (i, j) are the first `2ov` rows of tile (i + 1, j). */
  lemma OverlapContinuityVertical<P>(img: Image<P>, zero: P, rows: nat, cols: nat, overlap: int, i: nat, j: nat)
    requires img.Valid() && i + 1 < rows && j < cols
    ensures
      var th := TileSize(img.Height(), rows);
      var tw := TileSize(img.width, cols);
      var ov := ClampOverlap(overlap);
      var top := Window(img, zero, rows, cols, overlap, i, j);
      var bottom := Window(img, zero, rows, cols, overlap, i + 1, j);
      forall r, c :: 0 <= r < 2 * ov && 0 <= c < tw + 2 * ov ==> top.px[th + r][c] == bottom.px[r][c]
  {
    var tw := TileSize(img.width, cols);
    var ov := ClampOverlap(overlap);
    forall r: nat, c: nat {:trigger Window(img, zero, rows, cols, overlap, i + 1, j).px[r][c]} | r < 2 * ov && c < tw + 2 * ov {
      OverlapPixelVertical(img, zero, rows, cols, overlap, i, j, r, c);
    }
  }

  lemma OverlapPixelVertical<P>(img: Image<P>, zero: P, rows: nat, cols: nat, overlap: int, i: nat, j: nat, r: nat, c: nat)
    requires img.Valid() && i + 1 < rows && j < cols
    requires r < 2 * ClampOverlap(overlap) && c < TileSize(img.width, cols) + 2 * ClampOverlap(overlap)
    ensures Window(img, zero, rows, cols, overlap, i, j).px[TileSize(img.Height(), rows) + r][c]
         == Window(img, zero, rows, cols, overlap, i + 1, j).px[r][c]
  {
    var th := TileSize(img.Height(), rows);
    var tw := TileSize(img.width, cols);
    var ov := ClampOverlap(overlap);
    MulSucc(i, th);
    var x, y := Mul(i + 1, th) + r - ov, Mul(j, tw) + c - ov;
    WindowPixel(img, zero, rows, cols, overlap, i, j, th + r, c, x, y);
    WindowPixel(img, zero, rows, cols, overlap, i + 1, j, r, c, x, y);
  }
}

=== FILE: tiling.dfy ===
/** What the two classes of the tiler share: the exceptions their grid arithmetic and
    indexing can raise, and the overlap they both clamp to at least one pixel. */
module Tiling {

  /** The Python exceptions the algorithm can raise on its own. */
  datatype Error =
    | DivisionByZero   // `w % grid[1]` or `h % grid[0]` with a zero grid dimension
    | IndexOutOfRange  // `tiles[0]` or `tiles[i * grid[1] + j]` past the end of the list
    | ShapeMismatch    // a depadded tile that numpy cannot broadcast into its block

  datatype Result<T> = Success(value: T) | Failure(error: Error)

  /** `max(overlap, 1)`: the border and margin width actually used. */
  function ClampOverlap(overlap: int): (ov: nat)
    ensures ov >= 1 && ov >= overlap
    ensures ov == overlap || ov == 1
  {
    if overlap >= 1 then overlap else 1
  }
}

=== FILE: uint8.dfy ===
/** Pixels as numpy stores them for the two tilers: one integer per channel (a grayscale
    image has one channel), and numpy's conversion of such pixels to `uint8`, which keeps
    the low eight bits of every value. */
module Uint8 {
  import opened Images

  /** One integer per channel. */
  type Pixel = seq<int>

  /** numpy's integer-to-`uint8` cast: the value modulo 256. */
  function CastByte(v: int): (b: int)
    ensures 0 <= b < 256
    ensures (v - b) % 256 == 0
  {
    v % 256
  }

  /** The cast is the identity on values that already fit a byte. */
  lemma CastByteIdentity(v: int)
    requires 0 <= v < 256
    ensures CastByte(v) == v
  {
  }

  /** The cast agrees with any other byte congruent to `v`: it is determined by its
      ensures. */
  lemma CastByteUnique(v: int, b: int)
    requires 0 <= b < 256 && (v - b) % 256 == 0
    ensures CastByte(v) == b
  {
    var q := (v - b) / 256;
    assert v - b == 256 * q;
    assert v == 256 * q + b;
  }

  /** Every channel of the pixel fits a byte. */
  predicate ByteValued(p: Pixel) {
    forall ch :: 0 <= ch < |p| ==> 0 <= p[ch] < 256
  }

  /** The pixel with every channel cast to `uint8`. */
  function CastPixel(p: Pixel): (q: Pixel)
    ensures |q| == |p| && ByteValued(q)
    ensures forall ch :: 0 <= ch < |p| ==> q[ch] == CastByte(p[ch])
  {
    MapRow(p, CastByte)
  }

  /** A pixel that already fits is left unchanged by the cast. */
  lemma CastPixelIdentity(p: Pixel)
    requires ByteValued(p)
    ensures CastPixel(p) == p
  {
    forall ch | 0 <= ch < |p|
      ensures CastPixel(p)[ch] == p[ch]
    {
      CastByteIdentity(p[ch]);
    }
  }

  /** The zero pixel of `channels` channels (the filler of `np.pad` and `np.zeros`). */
  function ZeroPixel(channels: nat): (z: Pixel)
    ensures |z| == channels && ByteValued(z)
    ensures forall ch :: 0 <= ch < channels ==> z[ch] == 0
  {
    Fill(channels, 0)
  }

  /** Every pixel of the image fits a byte. Pixels carry no dtype, so this predicate also
      stands in for "the array's dtype is `uint8`" wherever the source dispatches on the
      dtype. */
  predicate IsUint8(img: Image<Pixel>)
    requires img.Valid()
  {
    forall r, c :: 0 <= r < img.Height() && 0 <= c < img.width ==> ByteValued(img.px[r][c])
  }

  /** `np.array(image, dtype=np.uint8)` on an integer image. */
  function ToUint8(img: Image<Pixel>): (u: Image<Pixel>)
    requires img.Valid()
    ensures u.HasShape(img.Height(), img.width) && IsUint8(u)
    ensures forall r, c :: 0 <= r < img.Height() && 0 <= c < img.width ==> u.px[r][c] == CastPixel(img.px[r][c])
  {
    MapPixels(img, CastPixel)
  }

  /** Casting a `uint8` image to `uint8` changes nothing. */
  lemma ToUint8Identity(img: Image<Pixel>)
    requires img.Valid() && IsUint8(img)
    ensures ToUint8(img) == img
  {
    forall r, c | 0 <= r < img.Height() && 0 <= c < img.width
      ensures ToUint8(img).px[r][c] == img.px[r][c]
    {
      CastPixelIdentity(img.px[r][c]);
    }
    Extensionality(ToUint8(img), img, img.Height(), img.width);
  }

  /** Casting twice is casting once. */
  lemma ToUint8Idempotent(img: Image<Pixel>)
    requires img.Valid()
    ensures ToUint8(ToUint8(img)) == ToUint8(img)
  {
    ToUint8Identity(ToUint8(img));
  }

  /** Every image of the list is valid and holds only bytes. */
  predicate AllUint8(imgs: seq<Image<Pixel>>) {
    forall k :: 0 <= k < |imgs| ==> imgs[k].Valid() && IsUint8(imgs[k])
  }

  /** Every image of the list cast to `uint8`, in order (a list comprehension over the
      tiles). */
  function ToUint8All(imgs: seq<Image<Pixel>>): (us: seq<Image<Pixel>>)
    requires AllValid(imgs)
    ensures |us| == |imgs| && AllValid(us) && AllUint8(us)
    ensures forall k :: 0 <= k < |imgs| ==> us[k] == ToUint8(imgs[k])
  {
    if |imgs| == 0 then []
    else ToUint8All(imgs[..|imgs| - 1]) + [ToUint8(imgs[|imgs| - 1])]
  }

  /** A list of `uint8` images is left unchanged. */
  lemma ToUint8AllIdentity(imgs: seq<Image<Pixel>>)
    requires AllValid(imgs) && AllUint8(imgs)
    ensures ToUint8All(imgs) == imgs
  {
    forall k | 0 <= k < |imgs|
      ensures ToUint8All(imgs)[k] == imgs[k]
    {
      ToUint8Identity(imgs[k]);
    }
  }
}

=== FILE: uint8_split.dfy ===
/** Splitting a `uint8` image yields `uint8` tiles, and combining `uint8` tiles yields a
    `uint8` canvas: padding only adds zero pixels, every window pixel is an image pixel or
    padding, and every canvas pixel is a pixel of some tile. */
module Uint8Split {
  import opened Images
  import opened GridArith
  import opened Tiling
  import opened Splitter
  import opened Combiner
  import opened Uint8

  /** A pixel read with zero extension from a `uint8` image with a byte zero is a byte. */
  lemma PixelOrByte(img: Image<Pixel>, zero: Pixel, x: int, y: int)
    requires img.Valid() && IsUint8(img) && ByteValued(zero)
    ensures ByteValued(PixelOr(img, zero, x, y))
  {
  }

  /** `check_divisible` keeps a `uint8` image `uint8`. */
  lemma GridPadUint8(img: Image<Pixel>, zero: Pixel, rows: nat, cols: nat)
    requires img.Valid() && IsUint8(img) && ByteValued(zero) && rows > 0 && cols > 0
    ensures IsUint8(GridPad(img, zero, rows, cols))
  {
    var g := GridPad(img, zero, rows, cols);
    forall r, c | 0 <= r < g.Height() && 0 <= c < g.width
      ensures ByteValued(g.px[r][c])
    {
      GridPadPixel(img, zero, rows, cols, r, c);
      PixelOrByte(img, zero, r, c);
    }
  }

  /** Every window of a `uint8` image is `uint8`. */
  lemma WindowUint8(img: Image<Pixel>, zero: Pixel, rows: nat, cols: nat, overlap: int, i: nat, j: nat)
    requires img.Valid() && IsUint8(img) && ByteValued(zero) && i < rows && j < cols
    ensures IsUint8(Window(img, zero, rows, cols, overlap, i, j))
  {
    var t := Window(img, zero, rows, cols, overlap, i, j);
    var th := TileSize(img.Height(), rows);
    var tw := TileSize(img.width, cols);
    var ov := ClampOverlap(overlap);
    forall r, c | 0 <= r < t.Height() && 0 <= c < t.width
      ensures ByteValued(t.px[r][c])
    {
      var x, y := Mul(i, th) + r - ov, Mul(j, tw) + c - ov;
      WindowPixel(img, zero, rows, cols, overlap, i, j, r, c, x, y);
      PixelOrByte(img, zero, x, y);
    }
  }

  /** Every tile `split_image` returns for a `uint8` image is `uint8`. */
  lemma SplitUint8(img: Image<Pixel>, zero: Pixel, rows: nat, cols: nat, overlap: int)
    requires img.Valid() && IsUint8(img) && ByteValued(zero) && rows > 0 && cols > 0
    ensures Split(img, zero, rows, cols, overlap).Success?
    ensures AllValid(Split(img, zero, rows, cols, overlap).value)
    ensures AllUint8(Split(img, zero, rows, cols, overlap).value)
  {
    var ts := Split(img, zero, rows, cols, overlap).value;
    forall k | 0 <= k < |ts|
      ensures ts[k].Valid() && IsUint8(ts[k])
    {
      RowMajorInverse(k, rows, cols);
      var i, j := Quot(k, cols), Rem(k, cols);
      SplitOrder(img, zero, rows, cols, overlap, i, j);
      WindowUint8(img, zero, rows, cols, overlap, i, j);
    }
  }

  /** A `uint8` tile with its border stripped and broadcast to the block size is `uint8`. */
  lemma FittedUint8(tiles: seq<Image<Pixel>>, ov: nat, k: nat)
    requires |tiles| > 0 && AllValid(tiles) && ov >= 1 && k < |tiles| && Fits(tiles, ov, k)
    requires IsUint8(tiles[k])
    ensures IsUint8(Fitted(tiles, ov, k))
  {
    var t := tiles[k];
    var d := Depad(t, ov);
    var f := Fitted(tiles, ov, k);
    forall r, c | 0 <= r < f.Height() && 0 <= c < f.width
      ensures ByteValued(f.px[r][c])
    {
      var r' := if d.Height() == f.Height() then r else 0;
      var c' := if d.width == f.width then c else 0;
      assert f.px[r][c] == d.px[r'][c'];
      DepadPixel(t, ov, r', c');
    }
  }

  /** A canvas of `rows x cols` blocks whose every block is `uint8` is `uint8`: the
      blocks cover the canvas. */
  lemma BlocksUint8(canvas: Image<Pixel>, th: nat, tw: nat, rows: nat, cols: nat)
    requires canvas.HasShape(Mul(rows, th), Mul(cols, tw))
    requires forall i, j :: 0 <= i < rows && 0 <= j < cols ==> IsUint8(Block(canvas, th, tw, rows, cols, i, j))
    ensures IsUint8(canvas)
  {
    forall R, C | 0 <= R < Mul(rows, th) && 0 <= C < Mul(cols, tw)
      ensures ByteValued(canvas.px[R][C])
    {
      RowMajorInverse(R, rows, th);
      RowMajorInverse(C, cols, tw);
      BlockPixel(canvas, th, tw, rows, cols, Quot(R, th), Quot(C, tw), Rem(R, th), Rem(C, tw));
    }
  }

  /** Assembling `uint8` blocks gives a `uint8` canvas. */
  lemma AssembleUint8(blocks: seq<Image<Pixel>>, th: nat, tw: nat, rows: nat, cols: nat)
    requires |blocks| == Mul(rows, cols)
    requires forall k :: 0 <= k < |blocks| ==> blocks[k].HasShape(th, tw) && IsUint8(blocks[k])
    ensures IsUint8(Assemble(blocks, th, tw, rows, cols))
  {
    var a := Assemble(blocks, th, tw, rows, cols);
    forall i, j | 0 <= i < rows && 0 <= j < cols
      ensures IsUint8(Block(a, th, tw, rows, cols, i, j))
    {
      AssembleBlock(blocks, th, tw, rows, cols, i, j);
    }
    BlocksUint8(a, th, tw, rows, cols);
  }

  /** Every pixel `combine_tiles` writes comes from one of the `uint8` tiles, so the
      combined canvas is `uint8`. */
  lemma CombineUint8(tiles: seq<Image<Pixel>>, rows: nat, cols: nat, overlap: int)
    requires AllValid(tiles) && AllUint8(tiles) && Combine(tiles, rows, cols, overlap).Success?
    ensures IsUint8(Combine(tiles, rows, cols, overlap).value)
  {
    var ov := ClampOverlap(overlap);
    CombineAssembles(tiles, rows, cols, overlap);
    var fs := FittedTiles(tiles, ov, Mul(rows, cols));
    forall k | 0 <= k < |fs|
      ensures IsUint8(fs[k])
    {
      FittedUint8(tiles, ov, k);
    }
    AssembleUint8(fs, CoreShape(tiles, ov).0, CoreShape(tiles, ov).1, rows, cols);
  }
}
